=== FILE: README.md ===
# blueblocks core in Dafny

A Dafny model of three pieces of the BlueBlocks library:

- **The declarative binary reader** (`FormattedReader`, `FileAccess/Attributes.cs`). A caller describes a record type by its fields and the fields' attributes. `Read<T>()` fills a fresh instance from a byte stream:
  - integers in either byte order;
  - NUL-terminated strings;
  - byte arrays in one bulk read;
  - other arrays element by element;
  - nested records field by field.

  Fields with `InternalUse` are skipped. Fields with `Offset` are deferred, then read at their absolute position, and the cursor is put back at the end of the inline fields. Array sizes, offsets and `ReadType` discriminators can be named members of the instance; the member resolver (`InferMember`) turns such a name into a number.
- **`Set<T>`**, a set kept as the keys of a dictionary.
- **`HTMLTable<TData>`**, which renders records as an HTML table.

## Layout

| file | module | contents |
|---|---|---|
| `wrappers.dfy` | `Wrappers` | `Option` and `Result` |
| `endian.dfy` | `Endian` | little- and big-endian byte decoding and encoding, two's complement, the unchecked 32-bit casts |
| `attributes.dfy` | `Attributes` | `ArraySize`, `ArrayInfo`, `ArrayProperty`, `Offset` |
| `schema.dfy` | `Schema` | field types, field descriptors (byte order, `InternalUse`, `ReadType`), layouts, runtime values, errors, fresh instances, termination measures |
| `resolver.dfy` | `Resolver` | `InferMember`, `GetArraySize`, `GetOffsetAttrContent`, `GetTypeValue` |
| `formatted_reader.dfy` | `FormattedReader` | `Read<T>`, `Read`, `ReadIntoArray`, `ReadIntoStruct`, `ReadIntoField`, `EndOfStream` |
| `reader_properties.dfy` | `ReaderProperties` | round trips of the integer and string decoders, array reading, error cases |
| `field_walk_properties.dfy` | `FieldWalkProperties` | how one field is read; the declaration-order theorem; the deferred-offset theorem |
| `reader_examples.dfy` | `ReaderExamples` | concrete layouts over concrete bytes |
| `set.dfy` | `SetUtils` | `Set<T>` |
| `reports.dfy` | `Reports` | `HTMLTable<TData>` |

**How the model stands in for what it cannot see:**

- **The stream** is an immutable byte sequence plus a cursor. Every read returns the value and the new cursor, or the error that aborted the read. An exception in the source is an `Err` here, except the few listed under "## Left out".
- **Runtime values** carry their runtime type, because `Read` dispatches on `o.GetType()` and not on the declared field type.
- **A record type** is an explicit `Layout`: its public instance fields in declaration order, with their attributes, plus the names of its public properties and zero-argument methods, whether it has a public parameterless constructor, and for each field the value it holds once its initialiser and that constructor have run. A type without a layout, such as an interface, is `Unsupported`.
- **Properties and methods** are user code. Their results come from the `invoke` parameter, as the integer their `ToString()` parses as, or `None` when it does not parse.
- **`HTMLTable`** receives its columns explicitly, in the order the reflection step produces. Each row holds its cells' texts.

## Behaviour worth noting

Four consequences of the code that a user of the attributes might not expect:

- **Terminated arrays.** `ArraySize(DefaultTerminated)` and `ArraySize(TerminatedAtEndOfFile)` record only the policy (Attributes.cs:37-39). `GetArraySize` then returns the stored size of 0 (FormattedReader.cs:312-315). So such an array reads as empty and consumes nothing. No terminator and no end of file is looked for (`FieldWalkProperties.TerminatedArrayFieldIsEmpty`, `ReaderExamples.EndOfFileArrayExample`).
- **String and nested-array elements.** Array elements are created with `Activator.CreateInstance` (FormattedReader.cs:149). `string` and array types have no parameterless constructor, so a non-empty array of strings or arrays fails rather than reading strings (`ReaderProperties.ReadIntoArrayOfStrings`). The same holds for interfaces, abstract classes and classes without a parameterless constructor, and for a null field of such a type (FormattedReader.cs:279, `ReaderExamples.UnmatchedTagFails`).
- **Short byte arrays.** A byte array is filled by one `Stream.Read` whose count is not checked (FormattedReader.cs:127-129). Near the end of the data the array is filled only partly and no error is raised (`ReaderProperties.ShortByteArray`).
- **The selected type can be ignored.** A `ReadType` rule selects a type. When the field already holds a non-null value, that value is read and the selected type is not used (FormattedReader.cs:277-282, `FieldWalkProperties.FieldReadsCurrentValue`).

## Model

| member | source | states |
|---|---|---|
| FormattedReader.EndOfStream | BlueBlocksLib/FileAccess/FormattedReader.cs:44-50 | at the end of the stream no bytes remain, and for a cursor inside the data it is at the end exactly when nothing remains |
| FormattedReader.Number | BlueBlocksLib/FileAccess/FormattedReader.cs:58-105 | the number a converter makes of raw bytes is always in the range of the integer type |
| FormattedReader.ReadInt | BlueBlocksLib/FileAccess/FormattedReader.cs:72-105 | a fixed-width integer read succeeds exactly when the type's width in bytes remains; it then advances the cursor by that width and yields an in-range value of the same kind |
| FormattedReader.ReadNulTerminated | BlueBlocksLib/FileAccess/FormattedReader.cs:115-124 | a string read succeeds exactly when a zero byte follows the cursor; it yields the non-zero bytes up to the first zero and ends just past it; otherwise it fails with end of data |
| FormattedReader.ReadBytesInto | BlueBlocksLib/FileAccess/FormattedReader.cs:127-129 | the bulk byte read copies min(length, remaining) bytes into the array's first slots, keeps the other slots, keeps the length and advances by the count copied |
| FormattedReader.Read | BlueBlocksLib/FileAccess/FormattedReader.cs:52-141 | a successful read gives a value of the same runtime type and shape, and never moves the cursor backwards or past the end of the data |
| FormattedReader.ReadIntoArray | BlueBlocksLib/FileAccess/FormattedReader.cs:143-153 | a successful element-by-element read yields exactly n elements, with the cursor kept within the data |
| FormattedReader.ReadIntoStruct | BlueBlocksLib/FileAccess/FormattedReader.cs:155-205 | a successful struct read yields a record of the same layout and field count; InternalUse fields keep their values, and the cursor stays within the data |
| FormattedReader.InlinePass | BlueBlocksLib/FileAccess/FormattedReader.cs:168-186 | the first loop leaves InternalUse and Offset fields and the fields before k untouched; the queued fields are increasing, unread, Offset-annotated and not skipped |
| FormattedReader.DeferredPass | BlueBlocksLib/FileAccess/FormattedReader.cs:188-204 | the second loop changes only the queued fields |
| FormattedReader.SelectType | BlueBlocksLib/FileAccess/FormattedReader.cs:242-253 | the first ReadType rule whose discriminator resolves to its value wins; an unresolvable discriminator before any match aborts; with no match the declared type is kept |
| FormattedReader.ReadIntoField | BlueBlocksLib/FileAccess/FormattedReader.cs:236-285 | reading one field never moves the cursor backwards or past the end of the data |
| FormattedReader.ReadObject | BlueBlocksLib/FileAccess/FormattedReader.cs:36-42 | `Read<T>()`, for a T with a parameterless constructor (the `new()` constraint), yields a value shaped like a fresh T and keeps the cursor within the data; an InternalUse field keeps the value its initialiser or the constructor gave it |
| Resolver.RemoveCalls | BlueBlocksLib/FileAccess/FormattedReader.cs:292-294 | `Replace("()", "")` never lengthens a name and leaves a name without the call marker unchanged |
| Resolver.RemoveCallsOfCall | BlueBlocksLib/FileAccess/FormattedReader.cs:292-295 | the specification `name()` is a method call of `name` |
| Resolver.FieldIndex | BlueBlocksLib/FileAccess/FormattedReader.cs:298 | field lookup finds the first field of that name, or reports that none has it |
| Resolver.ParseLong | BlueBlocksLib/FileAccess/FormattedReader.cs:295-304 | `long.Parse` succeeds exactly when the text is an integer that fits in 64 bits, and then yields it |
| Resolver.FieldNumber | BlueBlocksLib/FileAccess/FormattedReader.cs:301-302 | a field's value parses exactly when it is an integer within 64 bits, or a string whose text is a numeral within 64 bits; a null value fails with a null reference, an out-of-range number with an overflow, anything else as not an integer |
| Resolver.ParseNumeralOfDecimal | BlueBlocksLib/FileAccess/FormattedReader.cs:301-302 | `long.Parse` gives back any printed integer, with or without white space around it |
| Resolver.FieldNumberOfText | BlueBlocksLib/FileAccess/FormattedReader.cs:301-302 | a string field holding a printed integer resolves to that integer when it fits in 64 bits, and overflows otherwise |
| Resolver.InferMember | BlueBlocksLib/FileAccess/FormattedReader.cs:287-310 | an empty specification yields the literal; the member-not-found error occurs exactly when the name matches no method, field or property; a `()` name calls the method with the markers removed and parses its text; otherwise a field of that name is parsed, and only without one a property of that name |
| Resolver.GetArraySize | BlueBlocksLib/FileAccess/FormattedReader.cs:312-315 | the resolved size narrowed by an unchecked `(int)` cast: congruent modulo 2^32 and unchanged when in range; fails exactly when resolution fails |
| Resolver.GetOffsetAttrContent | BlueBlocksLib/FileAccess/FormattedReader.cs:317-319 | the literal offset without a member name; member-not-found exactly when the name matches nothing |
| Resolver.GetTypeValue | BlueBlocksLib/FileAccess/FormattedReader.cs:321-323 | the discriminator narrowed by an unchecked `(uint)` cast: congruent modulo 2^32 and unchanged when in range; fails exactly when resolution fails |
| Attributes.ArraySizeFixed | BlueBlocksLib/FileAccess/Attributes.cs:24-27 | `ArraySize(int)`; FieldWalkProperties.FixedArrayFieldSize states that it resolves to its literal |
| Attributes.ArraySizeFromMember | BlueBlocksLib/FileAccess/Attributes.cs:31-34 | `ArraySize(string)`; FieldWalkProperties.MemberAttributesResolve states that it resolves through `InferMember` with the literal 0 |
| Attributes.OffsetAt | BlueBlocksLib/FileAccess/Attributes.cs:62-64 | `Offset(long)`; FieldWalkProperties.MemberAttributesResolve states that it resolves to its literal |
| Attributes.OffsetFromMember | BlueBlocksLib/FileAccess/Attributes.cs:67-69 | `Offset(string)`; FieldWalkProperties.MemberAttributesResolve states that it resolves through `InferMember` with the literal 0 |
| Attributes.ParseInfo | BlueBlocksLib/FileAccess/Attributes.cs:37-47 | `Enum.Parse` gives the ArrayInfo member of that name, or fails when no member has it |
| Attributes.ArraySizeTerminated | BlueBlocksLib/FileAccess/Attributes.cs:37-54 | `ArraySize(ArrayProperty)` records the same-named policy, which is never FixedSize or AnotherMemberGivesSize |
| Attributes.TerminatedPolicyInjective | BlueBlocksLib/FileAccess/Attributes.cs:42-54 | distinct array properties record distinct policies |
| Schema.Instantiate | BlueBlocksLib/FileAccess/FormattedReader.cs:149 | `Activator.CreateInstance` fails exactly for strings, arrays, types without a layout (interfaces) and layouts without a public parameterless constructor; otherwise an integer or enum is zero, and a record has its layout and each field holds what its initialiser and the constructor left there |
| Schema.Zeros | BlueBlocksLib/FileAccess/FormattedReader.cs:266 | `Array.CreateInstance(e, n)` holds n zero elements |
| Endian.LittleEndian | BlueBlocksLib/FileAccess/FormattedReader.cs:65 | the little-endian value of n bytes is below 256^n |
| Endian.EncodeLittle | BlueBlocksLib/FileAccess/FormattedReader.cs:65 | the inverse of the little-endian reading: w bytes whose value is n |
| Endian.EncodeBig | BlueBlocksLib/FileAccess/FormattedReader.cs:61 | the inverse of the big-endian reading: w bytes whose value is n |
| Endian.EncodeLittleOfLittleEndian | BlueBlocksLib/FileAccess/FormattedReader.cs:65 | encoding the value of some bytes gives those bytes back |
| Endian.BigEndianIsReversedLittleEndian | BlueBlocksLib/FileAccess/FormattedReader.cs:58-66 | the big-endian value of some bytes is the little-endian value of the reversed bytes |
| Endian.ToSigned | BlueBlocksLib/FileAccess/FormattedReader.cs:72-98 | the two's complement reading is in the signed range and equals the unsigned value or that value minus 256^w |
| Endian.FromSigned | BlueBlocksLib/FileAccess/FormattedReader.cs:72-98 | the bit pattern of a signed value is unsigned, below 256^w, and reads back as that value |
| Endian.ToSignedInjective | BlueBlocksLib/FileAccess/FormattedReader.cs:72-98 | distinct bit patterns read as distinct signed values |
| Endian.ToInt32 | BlueBlocksLib/FileAccess/FormattedReader.cs:314 | the `(int)` cast is in the 32-bit signed range, congruent modulo 2^32, and the identity on that range |
| Endian.ToUInt32 | BlueBlocksLib/FileAccess/FormattedReader.cs:322 | the `(uint)` cast is in the 32-bit unsigned range, congruent modulo 2^32, and the identity on that range |
| ReaderProperties.EncodeInt | BlueBlocksLib/FileAccess/FormattedReader.cs:72-105 | an integer occupies exactly its type's width in the stream |
| ReaderProperties.ReadIntOfBytes | BlueBlocksLib/FileAccess/FormattedReader.cs:72-105 | an integer read over known bytes yields the number they encode and ends right after them |
| ReaderProperties.ReadIntOfEncoded | BlueBlocksLib/FileAccess/FormattedReader.cs:72-105 | decoding an encoded integer, anywhere in a stream, gives it back and consumes its width |
| ReaderProperties.EncodeIntOfRead | BlueBlocksLib/FileAccess/FormattedReader.cs:72-105 | re-encoding a decoded integer gives back the bytes it was decoded from |
| ReaderProperties.BigEndianReadIsReversedRead | BlueBlocksLib/FileAccess/FormattedReader.cs:58-105 | a big-endian read equals a little-endian read over the stream with the integer's bytes reversed |
| ReaderProperties.TruncatedIntFails | BlueBlocksLib/FileAccess/FormattedReader.cs:72-105 | with fewer bytes left than the width the read fails; nothing is zero-filled |
| ReaderProperties.ReadObjectOfEncodedInt | BlueBlocksLib/FileAccess/FormattedReader.cs:36-72 | `Read<T>()` starts little-endian, and an enum reads exactly as its underlying integer |
| ReaderProperties.TruncatedInt32Example | BlueBlocksLib/FileAccess/FormattedReader.cs:72-73 | a 4-byte integer against 2 remaining bytes fails |
| ReaderProperties.ReadTextOfEncoded | BlueBlocksLib/FileAccess/FormattedReader.cs:115-124 | decoding an encoded string gives it back and consumes exactly its bytes and terminator, whatever the string held before |
| ReaderProperties.EncodeTextOfRead | BlueBlocksLib/FileAccess/FormattedReader.cs:115-124 | a decoded string has no zero byte, and re-encoding it gives back exactly the bytes consumed |
| ReaderProperties.UnterminatedTextFails | BlueBlocksLib/FileAccess/FormattedReader.cs:115-124 | a string whose terminator never comes fails |
| ReaderProperties.TextExamples | BlueBlocksLib/FileAccess/FormattedReader.cs:115-124 | `48 65 6C 6C 6F 00` reads as "Hello" and `00` as the empty string, each consuming its terminator |
| ReaderProperties.ReadIntoArrayIsRepeat | BlueBlocksLib/FileAccess/FormattedReader.cs:143-153 | reading an array element by element equals the reference reading: a fresh element read where the previous one ended, the first failure aborting |
| ReaderProperties.RepeatSplit | BlueBlocksLib/FileAccess/FormattedReader.cs:148-152 | reading m + n items is reading m, then n from where those stopped |
| ReaderProperties.RepeatItem | BlueBlocksLib/FileAccess/FormattedReader.cs:148-152 | item i is what one step reads where the first i items ended |
| ReaderProperties.ReadIntoArraySplit | BlueBlocksLib/FileAccess/FormattedReader.cs:143-153 | an array of m + n elements reads as m elements, then n more from where those stopped; the first failure is the whole read's failure |
| ReaderProperties.ReadIntoArrayElement | BlueBlocksLib/FileAccess/FormattedReader.cs:148-152 | element i is a fresh instance read at the position where element i - 1 ended, in the array's byte order |
| ReaderProperties.ReadIntoArrayNeedsInstances | BlueBlocksLib/FileAccess/FormattedReader.cs:149 | a non-empty array read succeeds only for element types with a parameterless constructor |
| ReaderProperties.ReadIntoArrayOfStrings | BlueBlocksLib/FileAccess/FormattedReader.cs:148-149 | an array whose element type has no parameterless constructor (strings, arrays, interfaces, ...) is empty or fails |
| ReaderProperties.ReadIntoArrayOfInts | BlueBlocksLib/FileAccess/FormattedReader.cs:125-153 | an integer array reads exactly as its integers read back to back |
| ReaderProperties.ReadByteArray | BlueBlocksLib/FileAccess/FormattedReader.cs:127-129 | a byte array with enough data left holds exactly the next bytes and consumes them |
| ReaderProperties.FixedByteArrayExample | BlueBlocksLib/FileAccess/FormattedReader.cs:127-129 | a 4-byte array over `AA BB CC DD` decodes to those bytes |
| ReaderProperties.ShortByteArray | BlueBlocksLib/FileAccess/FormattedReader.cs:127-129 | near the end of the data a byte array is filled only partly, keeps its tail, and leaves the cursor at the end |
| ReaderProperties.EndOfStreamAtLength | BlueBlocksLib/FileAccess/FormattedReader.cs:44-50 | at the end of the stream a byte read fails |
| ReaderProperties.UnsupportedFails | BlueBlocksLib/FileAccess/FormattedReader.cs:134-139 | a value whose runtime type has no layout, or a null reference, fails, and a type without a layout cannot be instantiated |
| FieldWalkProperties.FieldReadsCurrentValue | BlueBlocksLib/FileAccess/FormattedReader.cs:236-285 | a non-null, non-array, non-string field is read into its current value, big-endian exactly when it carries BigEndian |
| FieldWalkProperties.FieldReadsFreshInstance | BlueBlocksLib/FileAccess/FormattedReader.cs:277-282 | a null field is read into a fresh instance of the selected type, and fails when that type has no parameterless constructor |
| FieldWalkProperties.StringFieldReadsFreshString | BlueBlocksLib/FileAccess/FormattedReader.cs:273-276 | a string field is read into a fresh empty string |
| FieldWalkProperties.ArrayFieldReadsResolvedCount | BlueBlocksLib/FileAccess/FormattedReader.cs:260-270 | an array field is read into a fresh array of the resolved length; a missing ArraySize, a failed resolution or a negative length aborts |
| FieldWalkProperties.TerminatedArrayFieldIsEmpty | BlueBlocksLib/FileAccess/FormattedReader.cs:260-270 | a terminated array field reads as an empty array and leaves the cursor where it was |
| FieldWalkProperties.MemberAttributesResolve | BlueBlocksLib/FileAccess/Attributes.cs:24-69 | `Offset(long)` resolves to its literal; `Offset(string)` resolves to whatever `InferMember` makes of the name; `ArraySize(string)` resolves to that, narrowed by the `(int)` cast, and fails when it fails; an empty name gives 0 for both |
| FieldWalkProperties.FixedArrayFieldSize | BlueBlocksLib/FileAccess/Attributes.cs:24-39 | a fixed size resolves to its literal, and both terminated policies to 0 |
| FieldWalkProperties.InferMemberStrip | BlueBlocksLib/FileAccess/FormattedReader.cs:287-310 | member resolution does not depend on which fields carry Offset attributes |
| FieldWalkProperties.ReadIntoFieldStrip | BlueBlocksLib/FileAccess/FormattedReader.cs:236-285 | a field without an Offset attribute reads the same whether or not other fields are deferred |
| FieldWalkProperties.InlinePassStrip | BlueBlocksLib/FileAccess/FormattedReader.cs:168-186 | deferring an Offset field and skipping it are the same to the first loop, apart from the queue |
| FieldWalkProperties.OffsetFieldsKeepCursor | BlueBlocksLib/FileAccess/FormattedReader.cs:188-204 | a struct ends where its inline fields end, whatever its Offset fields seeked; the fields without Offset read the same as with every Offset field skipped |
| FieldWalkProperties.OffsetIndices | BlueBlocksLib/FileAccess/FormattedReader.cs:172-183 | the fields the first loop queues are exactly the Offset fields without InternalUse, in increasing order |
| FieldWalkProperties.InlinePassChain | BlueBlocksLib/FileAccess/FormattedReader.cs:168-186 | for any layout, the first loop is a chain of reads of the inline fields, each starting where the previous ended and seeing the values read before it, while skipped and Offset fields keep their values and the cursor; it queues the Offset fields in order |
| FieldWalkProperties.FieldsInDeclarationOrder | BlueBlocksLib/FileAccess/FormattedReader.cs:155-205 | for any layout, inline fields consume the stream in declaration order, skipped and Offset fields are passed over, the Offset fields are then read by the second loop, and the struct ends where the last inline field ended; the second loop's failure is the struct's failure, and fields without Offset keep the inline values |
| FieldWalkProperties.InlineFieldsInDeclarationOrder | BlueBlocksLib/FileAccess/FormattedReader.cs:155-205 | a layout read wholly inline is exactly the chain of its field reads, ending where the last field ended |
| FieldWalkProperties.DeferredPassStep | BlueBlocksLib/FileAccess/FormattedReader.cs:192-201 | the second loop reads its next field at the resolved offset against the instance filled so far |
| FieldWalkProperties.PlainFieldRead | BlueBlocksLib/FileAccess/FormattedReader.cs:255-282 | an integer field without attributes reads an integer of its kind at the cursor, in its byte order |
| ReaderExamples.SwapExampleByteFirst | BlueBlocksLib/FileAccess/FormattedReader.cs:168-186 | `{a: byte, b: ushort}` over 01 02 03 gives a = 0x01 and b = 0x0302 |
| ReaderExamples.SwapExampleShortFirst | BlueBlocksLib/FileAccess/FormattedReader.cs:168-186 | swapping the two fields changes the mapping: b = 0x0201 and a = 0x03 |
| ReaderExamples.CountedExample | BlueBlocksLib/FileAccess/FormattedReader.cs:260-268 | `{count: uint, items: byte[count]}` reads count = 3, then three items |
| ReaderExamples.SelectTypeB | BlueBlocksLib/FileAccess/FormattedReader.cs:242-253 | tag 1 selects the second rule's type |
| ReaderExamples.NoTypeSelected | BlueBlocksLib/FileAccess/FormattedReader.cs:242-253 | a tag matching no rule keeps the declared type |
| ReaderExamples.TaggedPayload | BlueBlocksLib/FileAccess/FormattedReader.cs:277-282 | a null field with a selected type is read as a fresh instance of it |
| ReaderExamples.DiscriminatedExample | BlueBlocksLib/FileAccess/FormattedReader.cs:242-282 | `{tag: byte, payload}` over 01 34 12: the tag selects TypeB, whose ushort reads 0x1234 |
| ReaderExamples.UnmatchedTagFails | BlueBlocksLib/FileAccess/FormattedReader.cs:277-280 | with an unmatched tag the null payload gets its declared interface type, which cannot be instantiated, and the read fails |
| ReaderExamples.EndOfFileArrayExample | BlueBlocksLib/FileAccess/Attributes.cs:37-39 | an end-of-file-terminated byte array over five bytes reads as empty and consumes nothing |
| ReaderExamples.InitialiserExample | BlueBlocksLib/FileAccess/FormattedReader.cs:36-42 | `{[InternalUse] int n = 3; [ArraySize("n")] byte[] b}` over 01 02 03: n keeps 3, so b = [1, 2, 3] and the read ends at 3 |
| ReaderExamples.OffsetExample | BlueBlocksLib/FileAccess/FormattedReader.cs:155-205 | `{head: byte, [Offset(2)] far: byte}` over 10 20 30 gives far = 0x30 and ends at 1 |
| SetUtils.Empty | BlueBlocksLib/SetUtils/Set.cs:11-13 | `new Set()` has no members |
| SetUtils.EmptyWithCapacity | BlueBlocksLib/SetUtils/Set.cs:15-17 | `new Set(size)` throws exactly for a negative capacity hint, and otherwise has no members |
| SetUtils.Contains | BlueBlocksLib/SetUtils/Set.cs:67-69 | membership; what it reports after each operation is stated by Add, Remove, Clear, AddRange and CountAndContains |
| SetUtils.Count | BlueBlocksLib/SetUtils/Set.cs:75-77 | the number of members; how each operation changes it is stated by Add, Remove, Clear and CountAndContains |
| SetUtils.CountAndContains | BlueBlocksLib/SetUtils/Set.cs:67-77 | the count is zero exactly when nothing is a member, and any member makes it positive |
| SetUtils.Add | BlueBlocksLib/SetUtils/Set.cs:59-61 | the item becomes a member, no other membership changes, and the count grows by one exactly when the item was new |
| SetUtils.Remove | BlueBlocksLib/SetUtils/Set.cs:83-85 | reports whether the item was a member and removes it; no other membership changes; the count drops by one exactly when it was there |
| SetUtils.Clear | BlueBlocksLib/SetUtils/Set.cs:63-65 | no member is left |
| SetUtils.AddRange | BlueBlocksLib/SetUtils/Set.cs:19-23 | the members afterwards are the old members plus every item of the list |
| SetUtils.AddPresent | BlueBlocksLib/SetUtils/Set.cs:59-61 | adding a present member changes nothing |
| SetUtils.RemoveOfAdd | BlueBlocksLib/SetUtils/Set.cs:59-85 | removing what was just added gives back the original set |
| SetUtils.AddOfRemove | BlueBlocksLib/SetUtils/Set.cs:59-85 | adding back what was just removed gives back the original set |
| SetUtils.AddRangeIdempotent | BlueBlocksLib/SetUtils/Set.cs:19-23 | adding the same list twice is adding it once |
| SetUtils.Intersects | BlueBlocksLib/SetUtils/Set.cs:25-40 | true exactly when the sets share a member, in either argument order |
| SetUtils.AnyMemberOf | BlueBlocksLib/SetUtils/Set.cs:27-37 | the enumeration finds a member of the other set exactly when one exists, in any enumeration order |
| SetUtils.IntersectsList | BlueBlocksLib/SetUtils/Set.cs:42-49 | true exactly when some item of the sequence is a member |
| SetUtils.ToArray | BlueBlocksLib/SetUtils/Set.cs:51-55 | the array has Count elements, holds each member once, and nothing else |
| Reports.NatToString | BlueBlocksLib/Reports/HTMLTable.cs:116 | a non-negative number prints as a non-empty string of digits |
| Reports.IntToString | BlueBlocksLib/Reports/HTMLTable.cs:116 | a number prints with a leading minus exactly when negative, and digits otherwise |
| Reports.ParseNatToString | BlueBlocksLib/Reports/HTMLTable.cs:116 | the printed digits of a number parse back to it |
| Reports.ParseIntToString | BlueBlocksLib/Reports/HTMLTable.cs:116 | a printed width parses back to the number, sign included |
| Reports.JoinAppend | BlueBlocksLib/Reports/HTMLTable.cs:105 | `string.Join` puts the separator between consecutive parts |
| Reports.ConcatAppend | BlueBlocksLib/Reports/HTMLTable.cs:59 | joining with no separator distributes over concatenating part lists |
| Reports.Repeat | BlueBlocksLib/Reports/HTMLTable.cs:94-98 | a string repeated k times is k times as long, and empty for non-positive k |
| Reports.RepeatAdd | BlueBlocksLib/Reports/HTMLTable.cs:94-98 | repeating a + b times is repeating a times, then b times |
| Reports.MakeColumnHeader | BlueBlocksLib/Reports/HTMLTable.cs:108-120 | one `th` cell, with a `width` when the column has one; Reports.ParseMakeColumnHeader states that the cell gives back the width and the translated name |
| Reports.RenderHeader | BlueBlocksLib/Reports/HTMLTable.cs:84-106 | the column headers joined by CR LF; Reports.RenderHeaderAppend and Reports.MultiColumnSplits state how each column and each MultiColumn repeat extends it |
| Reports.RenderHeaderAppend | BlueBlocksLib/Reports/HTMLTable.cs:84-106 | a further column adds CR LF and its header text at the end of the header |
| Reports.MultiColumnSplits | BlueBlocksLib/Reports/HTMLTable.cs:92-99 | MultiColumn(a + b) renders the header of MultiColumn(a) followed by that of MultiColumn(b) |
| Reports.NumeralLength | BlueBlocksLib/Reports/HTMLTable.cs:116 | counts the leading numeral characters of a string |
| Reports.NumeralLengthOf | BlueBlocksLib/Reports/HTMLTable.cs:116 | a numeral followed by a non-numeral character is measured exactly |
| Reports.ParsePlainHeader | BlueBlocksLib/Reports/HTMLTable.cs:119 | a cell without a width reads back as its name and no width |
| Reports.ParseSizedHeader | BlueBlocksLib/Reports/HTMLTable.cs:116 | a cell with a width reads back as that width and its name |
| Reports.ParseMakeColumnHeader | BlueBlocksLib/Reports/HTMLTable.cs:108-120 | each header cell gives back the column's width and its translated name |
| Reports.RenderData | BlueBlocksLib/Reports/HTMLTable.cs:123-133 | a record's cells; Reports.RenderDataIsFlat states that it is one `td` per text the row shows |
| Reports.RenderDataIsFlat | BlueBlocksLib/Reports/HTMLTable.cs:123-133 | a row is one `td` per text it shows, scalars and array items alike, in order and with nothing between them |
| Reports.RenderRowsAppend | BlueBlocksLib/Reports/HTMLTable.cs:51-59 | rendering rows distributes over concatenating row lists |
| Reports.ClassAttribute | BlueBlocksLib/Reports/HTMLTable.cs:55 | the class attribute is empty exactly when ClassName is null |
| Reports.RenderRowAt | BlueBlocksLib/Reports/HTMLTable.cs:51-59 | row i is rendered after the rows before it and before the rows after it |
| Reports.Render | BlueBlocksLib/Reports/HTMLTable.cs:49-61 | the table; Reports.RenderAppendRow and Reports.RenderRowAt state where each record's `tr` goes |
| Reports.RenderDefault | BlueBlocksLib/Reports/HTMLTable.cs:63-65 | `Render()`; Reports.RenderDefaultShowsNames states that it is `Render` with the identity translation |
| Reports.RenderAppendRow | BlueBlocksLib/Reports/HTMLTable.cs:49-61 | appending a record inserts its `tr` just before `</table>` and changes nothing else |
| Reports.RenderDefaultShowsNames | BlueBlocksLib/Reports/HTMLTable.cs:63-65 | `Render()` is `Render` with the identity translation, so the header cells read back as the header names themselves |

## Left out

- Floating point: `float` and `double` fields (FormattedReader.cs:106-114) are not modelled; the model has no such field type.
- Stream plumbing: opening files and wrapping streams (FormattedReader.cs:15-34) are left out. The data is given as a byte sequence.
- UTF-8 decoding and `Trim('\0')` of strings (FormattedReader.cs:123) are left out. A string is kept as the bytes before its terminator, so it has no zero byte for `Trim` to remove.
- The reflection workaround `SortFieldInfoArrayByOrderSpecified` (FormattedReader.cs:207-234) is left out. The layout lists its fields in declaration order, which is what that workaround recovers. Record types are taken to have no public static or `const` fields: `GetFields()` (FormattedReader.cs:229) returns those as well, and the reader would then read and set them.
- The `Alignment`, `PopulateWithCurrentOffset`, `VersionSelect` and `ConstructWithInformation` attributes (Attributes.cs:74-115) are left out. The reader never consults them.
- FormattedReader.ReadIntoField: the value read is stored without the check `fi.SetValue` makes (FormattedReader.cs:284), which throws `ArgumentException` when the value cannot be assigned to the field's declared type. The model takes every `ReadType` rule to select a type the field can hold. For example, `[ReadType(typeof(string), "tag", 1)]` on an `int` field with tag 1 reads a string here, where the source throws. Deciding assignability needs the class hierarchy, interface implementations and the widening conversions reflection applies to boxed primitives, none of which a layout records.
- `LittleEndian` is recorded on the field but has no effect, as in the reader (FormattedReader.cs:238, 255).
- Deferred fields are read in declaration order. The source enumerates a `Dictionary`, whose enumeration order .NET does not specify.
- `ReadType` rules are tried in the order the field lists them. The source tries them in the order `GetCustomAttributes` returns (FormattedReader.cs:242-253), which .NET does not document either.
- Seeking is modelled on a memory stream: an offset outside 0 .. 2^31 - 1 fails, and seeking past the end is allowed.
- `InferMember` on an enum-valued member would parse the enum's name (`ToString()`), which fails for named values; enum values are modelled as their integers.
- A method named with `()` that does not exist throws `NullReferenceException` in the source; the model reports it as member-not-found.
- Recursive record types (a record containing itself) are not modelled: a layout is a finite tree. The source would recurse without end on a null self-typed field.
- SetUtils.Empty: a null item is not modelled; `Add`, `AddRange`, `Contains` and `Remove` throw `ArgumentNullException` for one (Set.cs:21, 60, 68, 84), and a set here holds only non-null items. The negative capacity hint is modelled by `SetUtils.EmptyWithCapacity`.
- Set: `CopyTo`, `IsReadOnly` and the enumerator class (Set.cs:71-73, 79-81, 89-160) are left out. Enumeration order is the dictionary's and is not modelled; the loops pick members in any order.
- HTMLTable: the reflection that finds the columns (HTMLTable.cs:67-82) is left out, and the columns are given explicitly in order. Cell values are given as their `ToString()` texts.
- HTMLTable: null cell values and null array fields are left out. A null scalar prints as an empty `td` in the source; a null array throws.
- Reports.NatToString: culture-specific number formatting is not modelled; widths print in invariant decimal.
- Reports.RenderDataIsFlat: only arrays of reference-type elements (such as `string[]`) are modelled as array cells. An array of a value type such as `int[]` or `byte[]` fails the `(object[])` cast (HTMLTable.cs:127) and throws; the model renders every array cell.
- Resolver.FieldNumber: `long.Parse` is modelled with the invariant culture's signs and ASCII digits. A struct or array member is taken to print its type name, so a `ToString` override that prints a numeral is not modelled.

=== FILE: attributes.dfy ===
/**
 * The size and offset annotations a schema author attaches to fields.
 *
 * Each attribute class becomes a datatype holding exactly the state the class
 * keeps, and each of its constructors becomes a function producing that state.
 * A .NET null string is `None`.  The byte-order flags and the skip flag carry no
 * state and are plain booleans on the field descriptor (see the Schema module);
 * `ReadType` mentions field types and therefore lives in the Schema module too.
 */
module Attributes {
  import opened Wrappers
  import opened Endian

  /** How the array length is determined, as recorded by an ArraySize attribute. */
  datatype ArrayInfo = FixedSize | AnotherMemberGivesSize | DefaultTerminated | TerminatedAtEndOfFile

  /** The public names a schema author may pass instead of a size. */
  datatype ArrayProperty = DefaultTerminated | TerminatedAtEndOfFile

  /** The member name that `ToString()` gives for each ArrayProperty value. */
  function PropertyName(p: ArrayProperty): string {
    match p
    case DefaultTerminated => "DefaultTerminated"
    case TerminatedAtEndOfFile => "TerminatedAtEndOfFile"
  }

  /** The member name that `ToString()` gives for each ArrayInfo value. */
  function InfoName(i: ArrayInfo): string {
    match i
    case FixedSize => "FixedSize"
    case AnotherMemberGivesSize => "AnotherMemberGivesSize"
    case DefaultTerminated => "DefaultTerminated"
    case TerminatedAtEndOfFile => "TerminatedAtEndOfFile"
  }

  /**
   * `Enum.Parse(typeof(ArrayInfo), prop.ToString())`: the ArrayInfo member with the
   * same name as the property.  Parsing fails for a name that has no
   * corresponding ArrayInfo member, which is why the result is optional.
   */
  function ParseInfo(name: string): (r: Option<ArrayInfo>)
    ensures r.None? ==> forall i :: InfoName(i) != name
    ensures r.Some? ==> InfoName(r.value) == name
  {
    if name == "FixedSize" then Some(FixedSize)
    else if name == "AnotherMemberGivesSize" then Some(AnotherMemberGivesSize)
    else if name == "DefaultTerminated" then Some(ArrayInfo.DefaultTerminated)
    else if name == "TerminatedAtEndOfFile" then Some(ArrayInfo.TerminatedAtEndOfFile)
    else None
  }

  /** The state of an ArraySize attribute: the recorded policy, the literal size, and the size member's name. */
  datatype ArraySizeAttribute = ArraySizeAttribute(info: ArrayInfo, size: int32, getSize: Option<string>)

  /** `ArraySize(int size)`: a literal element count. */
  function ArraySizeFixed(size: int32): (a: ArraySizeAttribute)
  {
    ArraySizeAttribute(FixedSize, size, None)
  }

  /** `ArraySize(string sizeFunction)`: the count is read from a field, property or method of the instance. */
  function ArraySizeFromMember(sizeFunction: string): (a: ArraySizeAttribute) {
    ArraySizeAttribute(AnotherMemberGivesSize, 0, Some(sizeFunction))
  }

  /**
   * `ArraySize(ArrayProperty prop)`: only the policy is recorded; the size stays 0
   * and no size member is named.  Every ArrayProperty has a same-named ArrayInfo
   * member, so the parse in the constructor always succeeds.
   */
  function ArraySizeTerminated(prop: ArrayProperty): (a: ArraySizeAttribute)
    ensures InfoName(a.info) == PropertyName(prop)
    ensures a.info != FixedSize && a.info != AnotherMemberGivesSize
  {
    var info := ParseInfo(PropertyName(prop));
    assert info.Some?;
    ArraySizeAttribute(info.value, 0, None)
  }

  /** Distinct properties select distinct policies: the property-to-policy map is injective. */
  lemma TerminatedPolicyInjective(p: ArrayProperty, q: ArrayProperty)
    ensures ArraySizeTerminated(p).info == ArraySizeTerminated(q).info ==> p == q
  {
  }

  /** The state of an Offset attribute: the literal offset and the offset member's name. */
  datatype OffsetAttribute = OffsetAttribute(specificOffset: int64, getOffset: Option<string>)

  /** `Offset(long offset)`: the field starts at this absolute position. */
  function OffsetAt(offset: int64): (a: OffsetAttribute)
  {
    OffsetAttribute(offset, None)
  }

  /** `Offset(string offsetFunction)`: the position is read from a member of the instance; the literal stays 0. */
  function OffsetFromMember(offsetFunction: string): (a: OffsetAttribute) {
    OffsetAttribute(0, Some(offsetFunction))
  }
}

=== FILE: endian.dfy ===
/**
 * Byte-order semantics for the fixed-width integers the reader decodes.
 *
 * The reader picks a little-endian or a big-endian bit converter per field; the
 * converter classes themselves are not part of this model, so their meaning is
 * defined here directly: little-endian puts the least significant byte first,
 * big-endian the most significant byte first, and signed kinds use two's
 * complement over the same bytes.  The unchecked casts `(int)`, `(uint)` that the
 * member resolver applies to 64-bit values are defined here too.
 */
module Endian {

  type byte = x: int | 0 <= x < 0x100

  /** 256 to the power n: the number of values n bytes can hold. */
  function Pow256(n: nat): (r: nat)
    ensures r >= 1
  {
    if n == 0 then 1 else 0x100 * Pow256(n - 1)
  }

  /** Unsigned value of bytes read least significant first. */
  function LittleEndian(bs: seq<byte>): (r: nat)
    ensures r < Pow256(|bs|)
  {
    if |bs| == 0 then 0 else bs[0] + 0x100 * LittleEndian(bs[1..])
  }

  /** Unsigned value of bytes read most significant first. */
  function BigEndian(bs: seq<byte>): (r: nat)
    ensures r < Pow256(|bs|)
  {
    if |bs| == 0 then 0
    else
      var init := bs[..|bs| - 1];
      assert Pow256(|bs|) == Pow256(|init|) * 0x100;
      BigEndian(init) * 0x100 + bs[|bs| - 1]
  }

  /** The bytes in the opposite order. */
  function Reverse(bs: seq<byte>): (r: seq<byte>)
    ensures |r| == |bs|
    ensures forall i :: 0 <= i < |bs| ==> r[i] == bs[|bs| - 1 - i]
  {
    if |bs| == 0 then [] else [bs[|bs| - 1]] + Reverse(bs[..|bs| - 1])
  }

  lemma {:induction false} ReverseInvolutive(bs: seq<byte>)
    ensures Reverse(Reverse(bs)) == bs
  {
    var r := Reverse(Reverse(bs));
    assert |r| == |bs|;
    forall i | 0 <= i < |bs|
      ensures r[i] == bs[i]
    {
      assert r[i] == Reverse(bs)[|bs| - 1 - i];
    }
  }

  /** Byte-order property: a big-endian read of bytes equals a little-endian read of the reversed bytes. */
  lemma {:induction false} BigEndianIsReversedLittleEndian(bs: seq<byte>)
    ensures BigEndian(bs) == LittleEndian(Reverse(bs))
  {
    if |bs| > 0 {
      var init := bs[..|bs| - 1];
      var rev := Reverse(bs);
      assert rev[1..] == Reverse(init);
      BigEndianIsReversedLittleEndian(init);
    }
  }

  /** The little-endian bytes of n in exactly w bytes: the inverse of LittleEndian. */
  function EncodeLittle(n: nat, w: nat): (r: seq<byte>)
    requires n < Pow256(w)
    ensures |r| == w
    ensures LittleEndian(r) == n
  {
    if w == 0 then []
    else
      var rest := EncodeLittle(n / 0x100, w - 1);
      assert ([n % 0x100] + rest)[1..] == rest;
      [n % 0x100] + rest
  }

  /** The big-endian bytes of n in exactly w bytes: the inverse of BigEndian. */
  function EncodeBig(n: nat, w: nat): (r: seq<byte>)
    requires n < Pow256(w)
    ensures |r| == w
    ensures BigEndian(r) == n
  {
    var le := EncodeLittle(n, w);
    BigEndianIsReversedLittleEndian(Reverse(le));
    ReverseInvolutive(le);
    Reverse(le)
  }

  /** Encoding a decoded value gives back the bytes: LittleEndian is injective on w-byte inputs. */
  lemma {:induction false} EncodeLittleOfLittleEndian(bs: seq<byte>)
    ensures EncodeLittle(LittleEndian(bs), |bs|) == bs
  {
    if |bs| > 0 {
      var n := LittleEndian(bs);
      EncodeLittleOfLittleEndian(bs[1..]);
      assert n % 0x100 == bs[0] && n / 0x100 == LittleEndian(bs[1..]);
    }
  }

  /** Half the range of a w-byte integer: the first value whose top bit is set. */
  function SignBoundary(w: nat): (r: int)
    requires w > 0
    ensures r > 0 && 2 * r == Pow256(w)
  {
    0x80 * Pow256(w - 1)
  }

  /** Two's complement reading of an unsigned w-byte value. */
  function ToSigned(u: nat, w: nat): (r: int)
    requires w > 0 && u < Pow256(w)
    ensures -SignBoundary(w) <= r < SignBoundary(w)
    ensures r == u || r == u - Pow256(w)
  {
    if u < SignBoundary(w) then u else u - Pow256(w)
  }

  /** The unsigned w-byte pattern that stores the signed value n. */
  function FromSigned(n: int, w: nat): (u: nat)
    requires w > 0 && -SignBoundary(w) <= n < SignBoundary(w)
    ensures u < Pow256(w)
    ensures ToSigned(u, w) == n
  {
    if n < 0 then n + Pow256(w) else n
  }

  lemma ToSignedInjective(u: nat, v: nat, w: nat)
    requires w > 0 && u < Pow256(w) && v < Pow256(w)
    requires ToSigned(u, w) == ToSigned(v, w)
    ensures u == v
  {
  }

  const TWO_POW_31: int := 0x8000_0000
  const TWO_POW_32: int := 0x1_0000_0000
  const TWO_POW_63: int := 0x8000_0000_0000_0000

  /** The unchecked C# cast `(int)x` of a 64-bit value: keep the low 32 bits, read them as signed. */
  function ToInt32(x: int): (r: int)
    ensures -TWO_POW_31 <= r < TWO_POW_31
    ensures (r - x) % TWO_POW_32 == 0
    ensures -TWO_POW_31 <= x < TWO_POW_31 ==> r == x
  {
    (x + TWO_POW_31) % TWO_POW_32 - TWO_POW_31
  }

  /** The unchecked C# cast `(uint)x` of a 64-bit value: keep the low 32 bits, read them as unsigned. */
  function ToUInt32(x: int): (r: nat)
    ensures r < TWO_POW_32
    ensures (r - x) % TWO_POW_32 == 0
    ensures 0 <= x < TWO_POW_32 ==> r == x
  {
    x % TWO_POW_32
  }

  /** Whether x fits the C# `long` type, so that `long.Parse` of its decimal text succeeds. */
  predicate IsInt64(x: int) {
    -TWO_POW_63 <= x < TWO_POW_63
  }

  /** The C# `int`, `long` and `uint` value ranges. */
  type int32 = x: int | -TWO_POW_31 <= x < TWO_POW_31
  type int64 = x: int | -TWO_POW_63 <= x < TWO_POW_63
  type uint32 = x: int | 0 <= x < TWO_POW_32
}

=== FILE: field_walk_properties.dfy ===
/**
 * Properties of the field walk: how one field is read, how a struct's fields are
 * read in declaration order, and why Offset fields never move the cursor.
 */
module FieldWalkProperties {
  import opened Wrappers
  import opened Endian
  import opened Attributes
  import opened Schema
  import opened Resolver
  import opened FormattedReader
  import opened ReaderProperties

  // ---------------------------------------------------------------------------
  // Reading one field
  // ---------------------------------------------------------------------------

  /**
   * A field whose selected type is neither an array nor a string, and whose
   * current value is not null, is read into that current value: whichever type a
   * ReadType rule selected is ignored.  The byte order is big-endian exactly when
   * the field carries BigEndian; a LittleEndian attribute plays no part.
   */
  lemma FieldReadsCurrentValue(l: Layout, orig: seq<Value>, inst: seq<Value>, k: nat, data: seq<byte>, pos: nat, invoke: Invoker, t: FieldType)
    requires |orig| == |inst| == |l.fields| && k < |l.fields| && inst[k] == orig[k]
    requires SelectType(l.fields[k].readTypes, l.fields[k].declared, l, inst, invoke) == Ok(t)
    requires !t.Arr? && !t.Str? && !inst[k].Null?
    ensures ReadIntoField(l, orig, inst, k, data, pos, invoke) == Read(inst[k], !l.fields[k].bigEndian, data, pos, invoke)
  {
  }

  /**
   * A null field is read into a fresh instance of the selected type; when that
   * type has no parameterless constructor the field, and so the struct, fails.
   */
  lemma FieldReadsFreshInstance(l: Layout, orig: seq<Value>, inst: seq<Value>, k: nat, data: seq<byte>, pos: nat, invoke: Invoker, t: FieldType)
    requires |orig| == |inst| == |l.fields| && k < |l.fields| && inst[k] == orig[k]
    requires SelectType(l.fields[k].readTypes, l.fields[k].declared, l, inst, invoke) == Ok(t)
    requires !t.Arr? && !t.Str? && inst[k].Null?
    ensures ReadIntoField(l, orig, inst, k, data, pos, invoke)
         == if Constructible(t) then Read(Default(t), !l.fields[k].bigEndian, data, pos, invoke) else Err(NoParameterlessConstructor)
  {
  }

  /** A string field is read into a fresh string, whatever it held. */
  lemma StringFieldReadsFreshString(l: Layout, orig: seq<Value>, inst: seq<Value>, k: nat, data: seq<byte>, pos: nat, invoke: Invoker)
    requires |orig| == |inst| == |l.fields| && k < |l.fields| && inst[k] == orig[k]
    requires SelectType(l.fields[k].readTypes, l.fields[k].declared, l, inst, invoke) == Ok(Str)
    ensures ReadIntoField(l, orig, inst, k, data, pos, invoke) == Read(Text([]), !l.fields[k].bigEndian, data, pos, invoke)
  {
  }

  /**
   * An array field is read into a fresh array of the resolved length; without an
   * ArraySize attribute, or with a negative resolved length, the read fails.
   */
  lemma ArrayFieldReadsResolvedCount(l: Layout, orig: seq<Value>, inst: seq<Value>, k: nat, data: seq<byte>, pos: nat, invoke: Invoker, e: FieldType)
    requires |orig| == |inst| == |l.fields| && k < |l.fields| && inst[k] == orig[k]
    requires SelectType(l.fields[k].readTypes, l.fields[k].declared, l, inst, invoke) == Ok(Arr(e))
    ensures var f := l.fields[k];
      var r := ReadIntoField(l, orig, inst, k, data, pos, invoke);
      && (f.arraySize.None? ==> r == Err(MissingArraySize(f.name)))
      && (f.arraySize.Some? ==>
            var size := GetArraySize(f.arraySize.value, l, inst, invoke);
            && (size.Err? ==> r == Err(size.error))
            && (size.Ok? && size.value < 0 ==> r == Err(NegativeArraySize(f.name)))
            && (size.Ok? && size.value >= 0 ==> r == Read(Array(e, Zeros(e, size.value)), !f.bigEndian, data, pos, invoke)))
  {
  }

  /**
   * A terminated array field resolves to length 0: it reads as an empty array and
   * leaves the cursor where it was.  No terminator is looked for.
   */
  lemma TerminatedArrayFieldIsEmpty(l: Layout, orig: seq<Value>, inst: seq<Value>, k: nat, data: seq<byte>, pos: nat, invoke: Invoker, e: FieldType, p: ArrayProperty)
    requires |orig| == |inst| == |l.fields| && k < |l.fields| && inst[k] == orig[k]
    requires SelectType(l.fields[k].readTypes, l.fields[k].declared, l, inst, invoke) == Ok(Arr(e))
    requires l.fields[k].arraySize == Some(ArraySizeTerminated(p))
    ensures ReadIntoField(l, orig, inst, k, data, pos, invoke) == Ok(Decoded(Array(e, []), pos))
  {
    ArrayFieldReadsResolvedCount(l, orig, inst, k, data, pos, invoke, e);
    assert GetArraySize(ArraySizeTerminated(p), l, inst, invoke) == Ok(0);
    assert Zeros(e, 0) == [];
    if e == Prim(U8) {
      assert ReadBytesInto([], data, pos) == Decoded(Array(Prim(U8), []), pos);
    }
  }

  /** A fixed-size array field resolves to its literal length. */
  lemma FixedArrayFieldSize(l: Layout, inst: seq<Value>, n: int32, invoke: Invoker)
    requires |inst| == |l.fields|
    ensures GetArraySize(ArraySizeFixed(n), l, inst, invoke) == Ok(n)
    ensures GetArraySize(ArraySizeTerminated(ArrayProperty.DefaultTerminated), l, inst, invoke) == Ok(0)
    ensures GetArraySize(ArraySizeTerminated(ArrayProperty.TerminatedAtEndOfFile), l, inst, invoke) == Ok(0)
  {
  }

  /**
   * A literal offset is used as it stands; an offset or a size that names a member
   * is whatever the member resolver makes of that name, the size narrowed to 32
   * bits.  An empty name falls back to the literal 0 both attributes store.
   */
  lemma MemberAttributesResolve(l: Layout, inst: seq<Value>, offset: int64, name: string, invoke: Invoker)
    requires |inst| == |l.fields|
    ensures GetOffsetAttrContent(OffsetAt(offset), l, inst, invoke) == Ok(offset)
    ensures GetOffsetAttrContent(OffsetFromMember(name), l, inst, invoke) == InferMember(0, Some(name), l, inst, invoke)
    ensures var m := InferMember(0, Some(name), l, inst, invoke);
      GetArraySize(ArraySizeFromMember(name), l, inst, invoke) == if m.Ok? then Ok(ToInt32(m.value)) else Err(m.error)
    ensures name == "" ==>
      GetOffsetAttrContent(OffsetFromMember(name), l, inst, invoke) == Ok(0) && GetArraySize(ArraySizeFromMember(name), l, inst, invoke) == Ok(0)
  {
  }

  // ---------------------------------------------------------------------------
  // Offset fields never move the cursor
  // ---------------------------------------------------------------------------

  /** The field with its Offset attribute turned into a skip: what the inline pass sees of it. */
  function StripField(f: Field): (g: Field)
    ensures g.name == f.name && g.readTypes == f.readTypes && g.arraySize == f.arraySize
    ensures f.offset.None? ==> g == f
    ensures f.offset.Some? ==> g.internalUse
  {
    if f.offset.Some? then f.(internalUse := true) else f
  }

  function StripFields(fs: seq<Field>): (gs: seq<Field>)
    ensures |gs| == |fs| && forall i :: 0 <= i < |fs| ==> gs[i] == StripField(fs[i])
  {
    seq(|fs|, i requires 0 <= i < |fs| => StripField(fs[i]))
  }

  /** The layout whose Offset fields are skipped instead of deferred. */
  function Strip(l: Layout): (s: Layout)
    ensures s.name == l.name && s.properties == l.properties && s.methods == l.methods
    ensures |s.fields| == |l.fields|
  {
    Layout(l.name, StripFields(l.fields), l.properties, l.methods, l.constructible)
  }

  /** Field lookup by name sees the same fields in the stripped layout. */
  lemma {:induction false} FieldIndexStrip(fs: seq<Field>, name: string)
    ensures FieldIndex(StripFields(fs), name) == FieldIndex(fs, name)
    decreases |fs|
  {
    if fs != [] {
      assert StripFields(fs)[1..] == StripFields(fs[1..]);
      FieldIndexStrip(fs[1..], name);
    }
  }

  /** Member resolution gives the same answers on the stripped layout. */
  lemma InferMemberStrip(literal: int64, spec: Option<string>, l: Layout, inst: seq<Value>, invoke: Invoker)
    requires |inst| == |l.fields|
    ensures InferMember(literal, spec, Strip(l), inst, invoke) == InferMember(literal, spec, l, inst, invoke)
  {
    if spec.Some? {
      FieldIndexStrip(l.fields, spec.value);
    }
  }

  lemma {:induction false} SelectTypeStrip(rules: seq<ReadTypeAttribute>, declared: FieldType, l: Layout, inst: seq<Value>, invoke: Invoker)
    requires |inst| == |l.fields|
    ensures SelectType(rules, declared, Strip(l), inst, invoke) == SelectType(rules, declared, l, inst, invoke)
    decreases |rules|
  {
    if rules != [] {
      InferMemberStrip(rules[0].value, rules[0].field, l, inst, invoke);
      SelectTypeStrip(rules[1..], declared, l, inst, invoke);
    }
  }

  /** A field without an Offset attribute is read the same way in the stripped layout. */
  lemma ReadIntoFieldStrip(l: Layout, orig: seq<Value>, inst: seq<Value>, k: nat, data: seq<byte>, pos: nat, invoke: Invoker)
    requires |orig| == |inst| == |l.fields| && k < |l.fields| && inst[k] == orig[k]
    requires l.fields[k].offset.None?
    ensures ReadIntoField(Strip(l), orig, inst, k, data, pos, invoke) == ReadIntoField(l, orig, inst, k, data, pos, invoke)
  {
    var f := l.fields[k];
    assert Strip(l).fields[k] == f;
    SelectTypeStrip(f.readTypes, f.declared, l, inst, invoke);
    if f.arraySize.Some? {
      InferMemberStrip(f.arraySize.value.size, f.arraySize.value.getSize, l, inst, invoke);
    }
  }

  /** The inline pass over the stripped layout is the inline pass over the layout, minus the deferred list. */
  lemma {:induction false} InlinePassStrip(l: Layout, orig: seq<Value>, k: nat, inst: seq<Value>, deferred: seq<nat>,
                                           data: seq<byte>, pos: nat, invoke: Invoker)
    requires |orig| == |inst| == |l.fields| && k <= |l.fields|
    requires forall j :: k <= j < |l.fields| ==> inst[j] == orig[j]
    requires DeferredOk(l, orig, inst, deferred, k)
    ensures DeferredOk(Strip(l), orig, inst, [], k)
    ensures var r := InlinePass(l, orig, k, inst, deferred, data, pos, invoke);
      InlinePass(Strip(l), orig, k, inst, [], data, pos, invoke)
        == if r.Ok? then Ok(r.value.(deferred := [])) else r
    decreases |l.fields| - k
  {
    if k < |l.fields| {
      var f := l.fields[k];
      var s := Strip(l);
      if f.internalUse {
        assert s.fields[k].internalUse;
        InlinePassStrip(l, orig, k + 1, inst, deferred, data, pos, invoke);
      } else if f.offset.Some? {
        assert s.fields[k].internalUse;
        InlinePassStrip(l, orig, k + 1, inst, deferred + [k], data, pos, invoke);
      } else {
        assert s.fields[k] == f;
        ReadIntoFieldStrip(l, orig, inst, k, data, pos, invoke);
        var d := ReadIntoField(l, orig, inst, k, data, pos, invoke);
        if d.Ok? {
          InlinePassStrip(l, orig, k + 1, inst[k := d.value.value], deferred, data, d.value.pos, invoke);
        }
      }
    }
  }

  /**
   * Deferred-offset invariant: a struct ends where its inline fields end,
   * however far its Offset fields seeked.  Reading the struct gives the same
   * cursor, and the same value for every field without an Offset attribute, as
   * reading it with every Offset field skipped.
   */
  lemma OffsetFieldsKeepCursor(l: Layout, orig: seq<Value>, data: seq<byte>, pos: nat, invoke: Invoker)
    requires |orig| == |l.fields|
    requires ReadIntoStruct(l, orig, data, pos, invoke).Ok?
    ensures var r := ReadIntoStruct(l, orig, data, pos, invoke).value;
      var s := ReadIntoStruct(Strip(l), orig, data, pos, invoke);
      && s.Ok? && s.value.pos == r.pos
      && forall j :: 0 <= j < |orig| && l.fields[j].offset.None? ==> s.value.value.fields[j] == r.value.fields[j]
  {
    InlinePassStrip(l, orig, 0, orig, [], data, pos, invoke);
    var inline := InlinePass(l, orig, 0, orig, [], data, pos, invoke).value;
    var fields := DeferredPass(l, orig, inline.inst, inline.deferred, data, invoke).value;
    forall j | 0 <= j < |orig| && l.fields[j].offset.None?
      ensures fields[j] == inline.inst[j]
    {
      assert j !in inline.deferred;
    }
  }

  // ---------------------------------------------------------------------------
  // Inline fields are read in declaration order
  // ---------------------------------------------------------------------------

  /** A field read inline at the cursor as an integer: no skip, no offset, no ReadType rule, a non-array non-string type, an integer value. */
  predicate PlainIntField(f: Field, v: Value) {
    v.Int? && !f.internalUse && f.offset.None? && f.readTypes == [] && !f.declared.Arr? && !f.declared.Str?
  }

  /**
   * The instance the first loop of `ReadIntoStruct` holds when it reaches field
   * j: the values read for the fields before j, the original values from j on.
   */
  function Partial(orig: seq<Value>, vals: seq<Value>, j: nat): (r: seq<Value>)
    requires |vals| == |orig| && j <= |orig|
    ensures |r| == |orig|
    ensures forall i :: 0 <= i < j ==> r[i] == vals[i]
    ensures forall i :: j <= i < |orig| ==> r[i] == orig[i]
  {
    vals[..j] + orig[j..]
  }

  /** Whether the inline pass reads field f at the cursor: it is neither skipped (InternalUse) nor deferred (Offset). */
  predicate ReadInline(f: Field) {
    !f.internalUse && f.offset.None?
  }

  /** The fields from k on that the inline pass queues for the deferred pass: the Offset fields not skipped, in declaration order. */
  function OffsetIndices(l: Layout, k: nat): (ks: seq<nat>)
    requires k <= |l.fields|
    ensures forall i :: 0 <= i < |ks| ==> k <= ks[i] < |l.fields| && l.fields[ks[i]].offset.Some? && !l.fields[ks[i]].internalUse
    ensures forall i, j :: 0 <= i < j < |ks| ==> ks[i] < ks[j]
    ensures forall j :: k <= j < |l.fields| && l.fields[j].offset.Some? && !l.fields[j].internalUse ==> j in ks
    decreases |l.fields| - k
  {
    if k == |l.fields| then []
    else if !l.fields[k].internalUse && l.fields[k].offset.Some? then [k] + OffsetIndices(l, k + 1)
    else OffsetIndices(l, k + 1)
  }

  /**
   * The inline pass as a chain of reads.  Suppose every field j from k on that
   * is read inline, read at starts[j] against the instance holding the values
   * before it, yields vals[j] and ends at starts[j + 1], while every skipped or
   * deferred field keeps its value and leaves the cursor alone.  Then the pass
   * from k stores those values in declaration order, queues the Offset fields
   * in declaration order, and ends at the last start.
   */
  lemma {:induction false} InlinePassChain(l: Layout, orig: seq<Value>, k: nat, vals: seq<Value>, starts: seq<nat>,
                                           deferred: seq<nat>, data: seq<byte>, invoke: Invoker)
    requires |orig| == |vals| == |l.fields| && |starts| == |l.fields| + 1 && k <= |l.fields|
    requires forall j :: k <= j < |l.fields| && !ReadInline(l.fields[j]) ==> vals[j] == orig[j] && starts[j + 1] == starts[j]
    requires forall j {:trigger ReadIntoField(l, orig, Partial(orig, vals, j), j, data, starts[j], invoke)} ::
               k <= j < |l.fields| && ReadInline(l.fields[j]) ==>
               ReadIntoField(l, orig, Partial(orig, vals, j), j, data, starts[j], invoke) == Ok(Decoded(vals[j], starts[j + 1]))
    requires DeferredOk(l, orig, Partial(orig, vals, k), deferred, k)
    ensures InlinePass(l, orig, k, Partial(orig, vals, k), deferred, data, starts[k], invoke)
         == Ok(InlineState(vals, deferred + OffsetIndices(l, k), starts[|l.fields|]))
    decreases |l.fields| - k
  {
    if k == |l.fields| {
      assert Partial(orig, vals, k) == vals;
      assert deferred + OffsetIndices(l, k) == deferred;
      InlinePassDone(l, orig, vals, deferred, data, starts[k], invoke);
    } else {
      var next := if l.fields[k].internalUse || l.fields[k].offset.None? then deferred else deferred + [k];
      InlinePassChainStep(l, orig, k, vals, starts, deferred, data, invoke);
      InlinePassChain(l, orig, k + 1, vals, starts, next, data, invoke);
      OffsetIndicesStep(l, k, deferred);
    }
  }

  /** Queuing field k and then the Offset fields after it is queuing the Offset fields from k. */
  lemma OffsetIndicesStep(l: Layout, k: nat, deferred: seq<nat>)
    requires k < |l.fields|
    ensures var next := if l.fields[k].internalUse || l.fields[k].offset.None? then deferred else deferred + [k];
      next + OffsetIndices(l, k + 1) == deferred + OffsetIndices(l, k)
  {
    if !l.fields[k].internalUse && l.fields[k].offset.Some? {
      assert deferred + [k] + OffsetIndices(l, k + 1) == deferred + ([k] + OffsetIndices(l, k + 1));
    }
  }

  /** One link of the chain: the pass at field k is the pass at field k + 1, with k queued when it is an Offset field. */
  lemma InlinePassChainStep(l: Layout, orig: seq<Value>, k: nat, vals: seq<Value>, starts: seq<nat>,
                            deferred: seq<nat>, data: seq<byte>, invoke: Invoker)
    requires |orig| == |vals| == |l.fields| && |starts| == |l.fields| + 1 && k < |l.fields|
    requires !ReadInline(l.fields[k]) ==> vals[k] == orig[k] && starts[k + 1] == starts[k]
    requires ReadInline(l.fields[k]) ==>
               ReadIntoField(l, orig, Partial(orig, vals, k), k, data, starts[k], invoke) == Ok(Decoded(vals[k], starts[k + 1]))
    requires DeferredOk(l, orig, Partial(orig, vals, k), deferred, k)
    ensures var next := if l.fields[k].internalUse || l.fields[k].offset.None? then deferred else deferred + [k];
      && DeferredOk(l, orig, Partial(orig, vals, k + 1), next, k + 1)
      && InlinePass(l, orig, k, Partial(orig, vals, k), deferred, data, starts[k], invoke)
         == InlinePass(l, orig, k + 1, Partial(orig, vals, k + 1), next, data, starts[k + 1], invoke)
  {
    var inst := Partial(orig, vals, k);
    if l.fields[k].internalUse {
      assert inst == Partial(orig, vals, k + 1);
    } else if l.fields[k].offset.Some? {
      assert inst == Partial(orig, vals, k + 1);
      InlinePassDeferStep(l, orig, k, inst, deferred, data, starts[k], invoke);
    } else {
      InlinePassReadStep(l, orig, k, inst, deferred, data, starts[k], invoke, Decoded(vals[k], starts[k + 1]));
      assert inst[k := vals[k]] == Partial(orig, vals, k + 1);
    }
  }

  /**
   * Declaration-order invariant of `ReadIntoStruct`, for any layout: inline
   * field j is read where the inline field before it ended, against the
   * instance holding the values read so far; skipped and Offset fields are
   * passed over; then the Offset fields are read in declaration order, and the
   * struct ends where the last inline field ended.  Fields without an Offset
   * attribute keep the values of the inline pass.
   */
  lemma FieldsInDeclarationOrder(l: Layout, orig: seq<Value>, vals: seq<Value>, starts: seq<nat>, data: seq<byte>, invoke: Invoker)
    requires |orig| == |vals| == |l.fields| && |starts| == |l.fields| + 1
    requires forall j :: 0 <= j < |l.fields| && !ReadInline(l.fields[j]) ==> vals[j] == orig[j] && starts[j + 1] == starts[j]
    requires forall j {:trigger ReadIntoField(l, orig, Partial(orig, vals, j), j, data, starts[j], invoke)} ::
               0 <= j < |l.fields| && ReadInline(l.fields[j]) ==>
               ReadIntoField(l, orig, Partial(orig, vals, j), j, data, starts[j], invoke) == Ok(Decoded(vals[j], starts[j + 1]))
    ensures DeferredOk(l, orig, vals, OffsetIndices(l, 0), |l.fields|)
    ensures var rest := DeferredPass(l, orig, vals, OffsetIndices(l, 0), data, invoke);
      ReadIntoStruct(l, orig, data, starts[0], invoke)
        == if rest.Ok? then Ok(Decoded(Record(l, rest.value), starts[|l.fields|])) else Err(rest.error)
    ensures var r := ReadIntoStruct(l, orig, data, starts[0], invoke);
      r.Ok? ==> forall j :: 0 <= j < |l.fields| && l.fields[j].offset.None? ==> r.value.value.fields[j] == vals[j]
  {
    InlinePassFromStart(l, orig, vals, starts, data, invoke);
    StructOfOffsetQueue(l, orig, vals, data, starts[0], starts[|l.fields|], invoke);
  }

  /** The chain of reads from the first field, starting from the fresh instance with nothing queued. */
  lemma InlinePassFromStart(l: Layout, orig: seq<Value>, vals: seq<Value>, starts: seq<nat>, data: seq<byte>, invoke: Invoker)
    requires |orig| == |vals| == |l.fields| && |starts| == |l.fields| + 1
    requires forall j :: 0 <= j < |l.fields| && !ReadInline(l.fields[j]) ==> vals[j] == orig[j] && starts[j + 1] == starts[j]
    requires forall j {:trigger ReadIntoField(l, orig, Partial(orig, vals, j), j, data, starts[j], invoke)} ::
               0 <= j < |l.fields| && ReadInline(l.fields[j]) ==>
               ReadIntoField(l, orig, Partial(orig, vals, j), j, data, starts[j], invoke) == Ok(Decoded(vals[j], starts[j + 1]))
    ensures InlinePass(l, orig, 0, orig, [], data, starts[0], invoke) == Ok(InlineState(vals, OffsetIndices(l, 0), starts[|l.fields|]))
  {
    assert Partial(orig, vals, 0) == orig;
    InlinePassChain(l, orig, 0, vals, starts, [], data, invoke);
    assert [] + OffsetIndices(l, 0) == OffsetIndices(l, 0);
  }

  /** A struct whose inline pass produced vals and queued the Offset fields: the deferred pass decides the rest. */
  lemma StructOfOffsetQueue(l: Layout, orig: seq<Value>, vals: seq<Value>, data: seq<byte>, pos: nat, end: nat, invoke: Invoker)
    requires |orig| == |vals| == |l.fields|
    requires InlinePass(l, orig, 0, orig, [], data, pos, invoke) == Ok(InlineState(vals, OffsetIndices(l, 0), end))
    ensures DeferredOk(l, orig, vals, OffsetIndices(l, 0), |l.fields|)
    ensures var rest := DeferredPass(l, orig, vals, OffsetIndices(l, 0), data, invoke);
      ReadIntoStruct(l, orig, data, pos, invoke)
        == if rest.Ok? then Ok(Decoded(Record(l, rest.value), end)) else Err(rest.error)
    ensures var r := ReadIntoStruct(l, orig, data, pos, invoke);
      r.Ok? ==> forall j :: 0 <= j < |l.fields| && l.fields[j].offset.None? ==> r.value.value.fields[j] == vals[j]
  {
    var ks := OffsetIndices(l, 0);
    StructOfInlinePass(l, orig, data, pos, invoke, InlineState(vals, ks, end));
    var rest := DeferredPass(l, orig, vals, ks, data, invoke);
    if rest.Ok? {
      forall j | 0 <= j < |l.fields| && l.fields[j].offset.None?
        ensures rest.value[j] == vals[j]
      {
        assert j !in ks;
      }
    }
  }

  /** A struct whose inline pass succeeded is whatever the deferred pass makes of it, ending where the inline pass ended. */
  lemma StructOfInlinePass(l: Layout, orig: seq<Value>, data: seq<byte>, pos: nat, invoke: Invoker, inline: InlineState)
    requires |orig| == |l.fields|
    requires InlinePass(l, orig, 0, orig, [], data, pos, invoke) == Ok(inline)
    ensures |inline.inst| == |l.fields| && DeferredOk(l, orig, inline.inst, inline.deferred, |l.fields|)
    ensures var rest := DeferredPass(l, orig, inline.inst, inline.deferred, data, invoke);
      ReadIntoStruct(l, orig, data, pos, invoke)
        == if rest.Ok? then Ok(Decoded(Record(l, rest.value), inline.pos)) else Err(rest.error)
  {
  }

  /** For a layout read wholly inline, the struct is exactly the chain of field reads. */
  lemma InlineFieldsInDeclarationOrder(l: Layout, orig: seq<Value>, vals: seq<Value>, starts: seq<nat>, data: seq<byte>, invoke: Invoker)
    requires |orig| == |vals| == |l.fields| && |starts| == |l.fields| + 1
    requires forall j :: 0 <= j < |l.fields| ==> ReadInline(l.fields[j])
    requires forall j {:trigger ReadIntoField(l, orig, Partial(orig, vals, j), j, data, starts[j], invoke)} :: 0 <= j < |l.fields| ==>
               ReadIntoField(l, orig, Partial(orig, vals, j), j, data, starts[j], invoke) == Ok(Decoded(vals[j], starts[j + 1]))
    ensures ReadIntoStruct(l, orig, data, starts[0], invoke) == Ok(Decoded(Record(l, vals), starts[|l.fields|]))
  {
    FieldsInDeclarationOrder(l, orig, vals, starts, data, invoke);
    if OffsetIndices(l, 0) != [] {
      assert false;
    }
  }

  /** The inline pass reads a field that is neither skipped nor deferred and goes on from where that read ended. */
  lemma InlinePassReadStep(l: Layout, orig: seq<Value>, k: nat, inst: seq<Value>, deferred: seq<nat>,
                           data: seq<byte>, pos: nat, invoke: Invoker, d: Decoded)
    requires |orig| == |inst| == |l.fields| && k < |l.fields|
    requires forall j :: k <= j < |l.fields| ==> inst[j] == orig[j]
    requires DeferredOk(l, orig, inst, deferred, k)
    requires !l.fields[k].internalUse && l.fields[k].offset.None?
    requires ReadIntoField(l, orig, inst, k, data, pos, invoke) == Ok(d)
    ensures DeferredOk(l, orig, inst[k := d.value], deferred, k + 1)
    ensures InlinePass(l, orig, k, inst, deferred, data, pos, invoke)
         == InlinePass(l, orig, k + 1, inst[k := d.value], deferred, data, d.pos, invoke)
  {
  }

  /** The inline pass queues a field with an Offset attribute without reading it. */
  lemma InlinePassDeferStep(l: Layout, orig: seq<Value>, k: nat, inst: seq<Value>, deferred: seq<nat>,
                            data: seq<byte>, pos: nat, invoke: Invoker)
    requires |orig| == |inst| == |l.fields| && k < |l.fields|
    requires forall j :: k <= j < |l.fields| ==> inst[j] == orig[j]
    requires DeferredOk(l, orig, inst, deferred, k)
    requires !l.fields[k].internalUse && l.fields[k].offset.Some?
    ensures DeferredOk(l, orig, inst, deferred + [k], k + 1)
    ensures InlinePass(l, orig, k, inst, deferred, data, pos, invoke)
         == InlinePass(l, orig, k + 1, inst, deferred + [k], data, pos, invoke)
  {
  }

  /** Past the last field the inline pass stops where it is. */
  lemma InlinePassDone(l: Layout, orig: seq<Value>, inst: seq<Value>, deferred: seq<nat>, data: seq<byte>, pos: nat, invoke: Invoker)
    requires |orig| == |inst| == |l.fields|
    requires DeferredOk(l, orig, inst, deferred, |l.fields|)
    ensures InlinePass(l, orig, |l.fields|, inst, deferred, data, pos, invoke) == Ok(InlineState(inst, deferred, pos))
  {
  }

  /** The deferred pass reads its first field at the resolved offset and goes on with the rest. */
  lemma DeferredPassStep(l: Layout, orig: seq<Value>, inst: seq<Value>, ks: seq<nat>, data: seq<byte>, invoke: Invoker,
                         offset: nat, d: Decoded)
    requires |orig| == |inst| == |l.fields|
    requires DeferredOk(l, orig, inst, ks, |l.fields|) && ks != []
    requires GetOffsetAttrContent(l.fields[ks[0]].offset.value, l, inst, invoke) == Ok(offset) && offset <= MaxStreamOffset
    requires ReadIntoField(l, orig, inst, ks[0], data, offset, invoke) == Ok(d)
    ensures DeferredOk(l, orig, inst[ks[0] := d.value], ks[1..], |l.fields|)
    ensures DeferredPass(l, orig, inst, ks, data, invoke) == DeferredPass(l, orig, inst[ks[0] := d.value], ks[1..], data, invoke)
  {
    var k := ks[0];
    forall i | 0 <= i < |ks[1..]|
      ensures inst[k := d.value][ks[1..][i]] == orig[ks[1..][i]]
    {
      assert ks[1..][i] == ks[i + 1] && ks[0] < ks[i + 1];
    }
  }

  /** A plain integer field reads an integer of its kind at the cursor, in the field's byte order. */
  lemma PlainFieldRead(l: Layout, orig: seq<Value>, inst: seq<Value>, k: nat, data: seq<byte>, pos: nat, invoke: Invoker)
    requires |orig| == |inst| == |l.fields| && k < |l.fields| && inst[k] == orig[k]
    requires PlainIntField(l.fields[k], orig[k])
    ensures ReadIntoField(l, orig, inst, k, data, pos, invoke) == ReadInt(orig[k].kind, !l.fields[k].bigEndian, data, pos)
  {
    var f := l.fields[k];
    assert SelectType([], f.declared, l, inst, invoke) == Ok(f.declared);
    FieldReadsCurrentValue(l, orig, inst, k, data, pos, invoke, f.declared);
    ReadOfInt(orig[k].kind, orig[k].n, !f.bigEndian, data, pos, invoke);
  }
}

=== FILE: formatted_reader.dfy ===
/**
 * The declarative binary reader.
 *
 * The stream is an immutable byte sequence and a cursor; a read returns the filled
 * value and the new cursor, or the error that aborted it.  `Read` dispatches on
 * the runtime type of the value being filled, exactly as the source dispatches on
 * `o.GetType()`:
 *  - an integer reads its width in bytes through the chosen byte order (an enum is
 *    already represented by its underlying integer kind);
 *  - a string reads bytes up to and including the first zero byte;
 *  - a byte array is filled by one bulk read, any other array element by element;
 *  - a struct instance runs the field walk: inline fields in declaration order,
 *    skipped fields untouched, offset fields deferred and read afterwards at their
 *    absolute position, and the cursor finally put back at the end of the inline
 *    fields.
 * Recursion terminates because every type the walk instantiates lies strictly
 * inside the layout or the element type being read (see the heights in Schema).
 */
module FormattedReader {
  import opened Wrappers
  import opened Endian
  import opened Attributes
  import opened Schema
  import opened Resolver

  /** A value read from the stream and the cursor position right after it. */
  datatype Decoded = Decoded(value: Value, pos: nat)

  /** The state after the inline pass of a struct: field values, deferred field indices, cursor. */
  datatype InlineState = InlineState(inst: seq<Value>, deferred: seq<nat>, pos: nat)

  /** The largest position a memory stream can seek to. */
  const MaxStreamOffset: int := TWO_POW_31 - 1

  /** The bytes still readable at pos: none once the cursor is at or past the end. */
  function Remaining(data: seq<byte>, pos: nat): (r: seq<byte>)
    ensures |r| == if pos < |data| then |data| - pos else 0
    ensures forall i :: 0 <= i < |r| ==> r[i] == data[pos + i]
  {
    if pos < |data| then data[pos..] else []
  }

  /** `EndOfStream`: the cursor sits exactly at the end of the data. */
  function EndOfStream(data: seq<byte>, pos: nat): (r: bool)
    ensures r ==> |Remaining(data, pos)| == 0
    ensures pos <= |data| ==> (r <==> |Remaining(data, pos)| == 0)
  {
    pos == |data|
  }

  /** The number a multi-byte converter makes of raw bytes, in the chosen byte order. */
  function Number(k: IntKind, littleEndian: bool, raw: seq<byte>): (n: int)
    requires |raw| == Width(k)
    ensures InRange(k, n)
  {
    var u := if littleEndian then LittleEndian(raw) else BigEndian(raw);
    if IsSigned(k) then ToSigned(u, Width(k)) else u
  }

  /** The fixed-width integer branches of `Read`: `byte` takes one byte as is, the others go through the converter. */
  function ReadInt(k: IntKind, littleEndian: bool, data: seq<byte>, pos: nat): (r: Result<Decoded, ReadError>)
    ensures r.Ok? <==> pos + Width(k) <= |data|
    ensures r.Ok? ==> r.value.pos == pos + Width(k)
    ensures r.Ok? ==> r.value.value.Int? && r.value.value.kind == k && InRange(k, r.value.value.n)
  {
    var raw := Remaining(data, pos);
    if |raw| < Width(k) then Err(EndOfData)
    else
      var bytes := raw[..Width(k)];
      var n := if k == U8 then bytes[0] else Number(k, littleEndian, bytes);
      Ok(Decoded(Int(k, n), pos + Width(k)))
  }

  /**
   * The string branch of `Read`: one byte at a time until a zero byte has been
   * consumed.  The result is the bytes before the zero and the position after it;
   * running out of bytes first is an error.
   */
  function ReadNulTerminated(data: seq<byte>, pos: nat): (r: Result<(seq<byte>, nat), ReadError>)
    ensures r.Ok? <==> exists z :: pos <= z < |data| && data[z] == 0
    ensures r.Err? ==> r.error == EndOfData
    ensures r.Ok? ==> var (s, end) := r.value;
      && pos < end <= |data|
      && data[end - 1] == 0
      && s == data[pos..end - 1]
      && (forall i :: 0 <= i < |s| ==> s[i] != 0)
    decreases |data| - pos
  {
    if pos >= |data| then Err(EndOfData)
    else if data[pos] == 0 then Ok(([], pos + 1))
    else
      var rest := ReadNulTerminated(data, pos + 1);
      assert rest.Ok? <==> exists z :: pos <= z < |data| && data[z] == 0 by {
        if z :| pos <= z < |data| && data[z] == 0 {
          assert pos + 1 <= z;
        }
      }
      match rest
      case Err(e) => Err(e)
      case Ok((s, end)) =>
        assert [data[pos]] + s == data[pos..end - 1];
        Ok(([data[pos]] + s, end))
  }

  function ByteValues(bs: seq<byte>): (vs: seq<Value>)
    ensures |vs| == |bs|
    ensures forall i :: 0 <= i < |bs| ==> vs[i] == Int(U8, bs[i])
  {
    seq(|bs|, i requires 0 <= i < |bs| => Int(U8, bs[i]))
  }

  /**
   * The byte-array branch of `Read`: one bulk read of as many bytes as the array
   * holds.  The count actually read is not checked, so near the end of the data the
   * read stops early and the remaining slots keep what they held.
   */
  function ReadBytesInto(items: seq<Value>, data: seq<byte>, pos: nat): (d: Decoded)
    ensures d.value.Array? && d.value.elem == Prim(U8) && |d.value.items| == |items|
    ensures var n := Min(|items|, |Remaining(data, pos)|);
      && d.pos == pos + n
      && (forall i :: 0 <= i < n ==> d.value.items[i] == Int(U8, data[pos + i]))
      && (forall i :: n <= i < |items| ==> d.value.items[i] == items[i])
  {
    var avail := Remaining(data, pos);
    var n := Min(|items|, |avail|);
    Decoded(Array(Prim(U8), ByteValues(avail[..n]) + items[n..]), pos + n)
  }

  function Min(a: nat, b: nat): nat {
    if a < b then a else b
  }

  /** `Read(ref o, isLittleEndian)`: fill the value v, dispatching on its runtime type. */
  function Read(v: Value, littleEndian: bool, data: seq<byte>, pos: nat, invoke: Invoker): (r: Result<Decoded, ReadError>)
    ensures r.Ok? ==> SameShape(v, r.value.value)
    ensures r.Ok? ==> pos <= r.value.pos <= Max(pos, |data|)
    decreases ValueHeight(v), ValueSize(v), 5, 0
  {
    match v
    case Null => Err(NullObject)
    case Int(k, _) => ReadInt(k, littleEndian, data, pos)
    case Text(_) =>
      var (s, end) :- ReadNulTerminated(data, pos);
      Ok(Decoded(Text(s), end))
    case Array(e, items) =>
      if e == Prim(U8) then Ok(ReadBytesInto(items, data, pos))
      else
        var (elements, end) :- ReadIntoArray(e, |items|, littleEndian, data, pos, invoke);
        Ok(Decoded(Array(e, elements), end))
    case Record(l, vs) =>
      if |vs| != |l.fields| then Err(MalformedInstance)
      else ReadIntoStruct(l, vs, data, pos, invoke)
    case Opaque => Err(NoLayout)
  }

  /**
   * `ReadIntoArray`: n elements, each a fresh instance of the element type read
   * in turn with the array's byte order.
   */
  function ReadIntoArray(e: FieldType, n: nat, littleEndian: bool, data: seq<byte>, pos: nat, invoke: Invoker)
    : (r: Result<(seq<Value>, nat), ReadError>)
    ensures r.Ok? ==> |r.value.0| == n
    ensures r.Ok? ==> pos <= r.value.1 <= Max(pos, |data|)
    decreases 1 + TypeHeight(e), 0, 0, n
  {
    if n == 0 then Ok(([], pos))
    else
      var element :- Instantiate(e);
      DefaultHeight(e);
      var first :- Read(element, littleEndian, data, pos, invoke);
      var (rest, end) :- ReadIntoArray(e, n - 1, littleEndian, data, first.pos, invoke);
      Ok(([first.value] + rest, end))
  }

  /** Indices of the fields deferred by the inline pass so far: increasing, unread, offset-annotated, not skipped. */
  ghost predicate DeferredOk(l: Layout, orig: seq<Value>, inst: seq<Value>, deferred: seq<nat>, bound: nat)
    requires |orig| == |inst| == |l.fields|
  {
    && (forall i :: 0 <= i < |deferred| ==> deferred[i] < bound && deferred[i] < |l.fields|)
    && (forall i, j :: 0 <= i < j < |deferred| ==> deferred[i] < deferred[j])
    && (forall i :: 0 <= i < |deferred| ==> inst[deferred[i]] == orig[deferred[i]])
    && (forall i :: 0 <= i < |deferred| ==>
          l.fields[deferred[i]].offset.Some? && !l.fields[deferred[i]].internalUse)
  }

  /**
   * `ReadIntoStruct`: the inline pass, then the deferred pass; the cursor ends
   * where the inline pass left it, however far the deferred reads seeked.
   */
  function ReadIntoStruct(l: Layout, orig: seq<Value>, data: seq<byte>, pos: nat, invoke: Invoker): (r: Result<Decoded, ReadError>)
    requires |orig| == |l.fields|
    ensures r.Ok? ==> r.value.value.Record? && r.value.value.layout == l && |r.value.value.fields| == |orig|
    ensures r.Ok? ==> pos <= r.value.pos <= Max(pos, |data|)
    ensures r.Ok? ==> forall j :: 0 <= j < |orig| && l.fields[j].internalUse ==> r.value.value.fields[j] == orig[j]
    decreases ValueHeight(Record(l, orig)), ValueSize(Record(l, orig)), 4, 0
  {
    var inline :- InlinePass(l, orig, 0, orig, [], data, pos, invoke);
    var fields :- DeferredPass(l, orig, inline.inst, inline.deferred, data, invoke);
    Ok(Decoded(Record(l, fields), inline.pos))
  }

  /**
   * The first loop of `ReadIntoStruct`, from field k on: skipped fields are passed
   * over, offset fields are queued, every other field is read at the cursor.
   */
  function InlinePass(l: Layout, orig: seq<Value>, k: nat, inst: seq<Value>, deferred: seq<nat>,
                      data: seq<byte>, pos: nat, invoke: Invoker): (r: Result<InlineState, ReadError>)
    requires |orig| == |inst| == |l.fields| && k <= |l.fields|
    requires forall j :: k <= j < |l.fields| ==> inst[j] == orig[j]
    requires DeferredOk(l, orig, inst, deferred, k)
    ensures r.Ok? ==> |r.value.inst| == |l.fields| && DeferredOk(l, orig, r.value.inst, r.value.deferred, |l.fields|)
    ensures r.Ok? ==> pos <= r.value.pos <= Max(pos, |data|)
    ensures r.Ok? ==> forall j :: 0 <= j < |inst| && (j < k || l.fields[j].internalUse || l.fields[j].offset.Some?) ==>
              r.value.inst[j] == inst[j]
    decreases ValueHeight(Record(l, orig)), ValueSize(Record(l, orig)), 3, |l.fields| - k
  {
    if k == |l.fields| then Ok(InlineState(inst, deferred, pos))
    else
      var f := l.fields[k];
      if f.internalUse then InlinePass(l, orig, k + 1, inst, deferred, data, pos, invoke)
      else if f.offset.Some? then InlinePass(l, orig, k + 1, inst, deferred + [k], data, pos, invoke)
      else
        var d :- ReadIntoField(l, orig, inst, k, data, pos, invoke);
        InlinePass(l, orig, k + 1, inst[k := d.value], deferred, data, d.pos, invoke)
  }

  /**
   * The second loop of `ReadIntoStruct`: each deferred field is read at the
   * absolute offset its Offset attribute resolves to, against the instance as
   * filled so far.
   */
  function DeferredPass(l: Layout, orig: seq<Value>, inst: seq<Value>, ks: seq<nat>, data: seq<byte>, invoke: Invoker)
    : (r: Result<seq<Value>, ReadError>)
    requires |orig| == |inst| == |l.fields|
    requires DeferredOk(l, orig, inst, ks, |l.fields|)
    ensures r.Ok? ==> |r.value| == |inst|
    ensures r.Ok? ==> forall j :: 0 <= j < |inst| && j !in ks ==> r.value[j] == inst[j]
    decreases ValueHeight(Record(l, orig)), ValueSize(Record(l, orig)), 3, |ks|
  {
    if ks == [] then Ok(inst)
    else
      var k := ks[0];
      var f := l.fields[k];
      var offset :- GetOffsetAttrContent(f.offset.value, l, inst, invoke);
      if offset < 0 || offset > MaxStreamOffset then Err(SeekOutOfRange(f.name))
      else
        var d :- ReadIntoField(l, orig, inst, k, data, offset, invoke);
        DeferredPass(l, orig, inst[k := d.value], ks[1..], data, invoke)
  }

  /**
   * The type-selection loop of `ReadIntoField`: the type of the first ReadType rule
   * whose discriminator resolves to the rule's value, or the declared type when no
   * rule matches.  A discriminator that cannot be resolved aborts the read.
   */
  function SelectType(rules: seq<ReadTypeAttribute>, declared: FieldType, l: Layout, inst: seq<Value>, invoke: Invoker)
    : (r: Result<FieldType, ReadError>)
    requires |inst| == |l.fields|
    ensures NoMatchBefore(rules, |rules|, l, inst, invoke) ==> r == Ok(declared)
    ensures forall i :: 0 <= i < |rules| && NoMatchBefore(rules, i, l, inst, invoke) ==>
              var found := GetTypeValue(rules[i], l, inst, invoke);
              && (found == Ok(rules[i].value) ==> r == Ok(rules[i].t))
              && (found.Err? ==> r.Err?)
    ensures r.Ok? ==> TypeHeight(r.value) <= Max(TypeHeight(declared), RulesHeight(rules))
  {
    if rules == [] then Ok(declared)
    else
      var found :- GetTypeValue(rules[0], l, inst, invoke);
      if rules[0].value == found then Ok(rules[0].t)
      else SelectType(rules[1..], declared, l, inst, invoke)
  }

  /** Every rule before index i resolves its discriminator, to a value other than its own. */
  predicate NoMatchBefore(rules: seq<ReadTypeAttribute>, i: nat, l: Layout, inst: seq<Value>, invoke: Invoker)
    requires i <= |rules| && |inst| == |l.fields|
  {
    forall j :: 0 <= j < i ==>
      var found := GetTypeValue(rules[j], l, inst, invoke);
      found.Ok? && found.value != rules[j].value
  }

  /**
   * `ReadIntoField`: read field k of an instance of l.  Array-typed fields get a
   * fresh array of the resolved length; string fields a fresh empty string; other
   * fields are read into their current value, or into a fresh instance of the
   * selected type when that value is null.  The field is big-endian iff it carries
   * BigEndian.  The value read is stored as it is: the selected type is taken to be
   * one the field can hold, so no assignability check is modelled.
   */
  function ReadIntoField(l: Layout, orig: seq<Value>, inst: seq<Value>, k: nat, data: seq<byte>, pos: nat, invoke: Invoker)
    : (r: Result<Decoded, ReadError>)
    requires |orig| == |inst| == |l.fields| && k < |l.fields| && inst[k] == orig[k]
    ensures r.Ok? ==> pos <= r.value.pos <= Max(pos, |data|)
    decreases ValueHeight(Record(l, orig)), ValueSize(Record(l, orig)), 2, 0
  {
    var f := l.fields[k];
    var t :- SelectType(f.readTypes, f.declared, l, inst, invoke);
    FieldsHeightBound(l.fields, k);
    assert FieldHeight(f) <= LayoutHeight(l);
    var littleEndian := !f.bigEndian;
    if t.Arr? then
      if f.arraySize.None? then Err(MissingArraySize(f.name))
      else
        var size :- GetArraySize(f.arraySize.value, l, inst, invoke);
        if size < 0 then Err(NegativeArraySize(f.name))
        else Read(Array(t.elem, Zeros(t.elem, size)), littleEndian, data, pos, invoke)
    else if t.Str? then Read(Text([]), littleEndian, data, pos, invoke)
    else if inst[k].Null? then
      var created :- Instantiate(t);
      DefaultHeight(t);
      Read(created, littleEndian, data, pos, invoke)
    else
      ValuesBound(orig, k);
      Read(inst[k], littleEndian, data, pos, invoke)
  }

  /**
   * `Read<T>()`: construct a fresh T (the `new()` constraint) and fill it from the
   * cursor, little-endian.  An InternalUse field of a record type is not read, so
   * it keeps what its initialiser or the constructor put there.
   */
  function ReadObject(t: FieldType, data: seq<byte>, pos: nat, invoke: Invoker): (r: Result<Decoded, ReadError>)
    requires Constructible(t)
    ensures r.Ok? ==> SameShape(Default(t), r.value.value)
    ensures r.Ok? ==> pos <= r.value.pos <= Max(pos, |data|)
    ensures r.Ok? && t.Struct? ==>
      forall j :: 0 <= j < |t.layout.fields| && t.layout.fields[j].internalUse ==>
        r.value.value.fields[j] == InitialValue(t.layout.fields[j])
  {
    Read(Default(t), true, data, pos, invoke)
  }
}

=== FILE: reader_examples.dfy ===
/**
 * Worked examples: small concrete layouts read over concrete bytes, each with
 * the value and the cursor the reader ends with.
 */
module ReaderExamples {
  import opened Wrappers
  import opened Endian
  import opened Attributes
  import opened Schema
  import opened Resolver
  import opened FormattedReader
  import opened ReaderProperties
  import opened FieldWalkProperties

  /** A public integer field of kind k with no attributes. */
  function IntField(name: string, k: IntKind): Field {
    Field(name, Prim(k), Some(Int(k, 0)), false, false, false, None, None, [])
  }

  /** The fresh values of a two-field layout, field by field. */
  lemma InitialOfTwo(f0: Field, f1: Field)
    ensures Initial([f0, f1]) == [InitialValue(f0), InitialValue(f1)]
  {
    assert [f0, f1][1..] == [f1];
    assert [f1][1..] == [];
  }

  // ---------------------------------------------------------------------------
  // Declaration order: swapping two fields of different widths
  // ---------------------------------------------------------------------------

  const AB := Layout("AB", [IntField("a", U8), IntField("b", U16)], [], [], true)
  const BA := Layout("BA", [IntField("b", U16), IntField("a", U8)], [], [], true)

  /** A plain integer field over the bytes bs, with prefix before it and rest after it, reads the integer bs encode. */
  lemma PlainFieldOfBytes(l: Layout, orig: seq<Value>, inst: seq<Value>, k: nat, prefix: seq<byte>, bs: seq<byte>, rest: seq<byte>,
                          invoke: Invoker)
    requires |orig| == |inst| == |l.fields| && k < |l.fields| && inst[k] == orig[k]
    requires PlainIntField(l.fields[k], orig[k]) && |bs| == Width(orig[k].kind)
    ensures ReadIntoField(l, orig, inst, k, prefix + bs + rest, |prefix|, invoke)
         == Ok(Decoded(Int(orig[k].kind, if orig[k].kind == U8 then bs[0] else Number(orig[k].kind, !l.fields[k].bigEndian, bs)),
                       |prefix| + |bs|))
  {
    PlainFieldRead(l, orig, inst, k, prefix + bs + rest, |prefix|, invoke);
    ReadIntOfBytes(orig[k].kind, !l.fields[k].bigEndian, prefix, bs, rest);
  }

  /** Field a of AB over 01 02 03 reads the first byte. */
  lemma ByteFirstA(invoke: Invoker)
    ensures ReadIntoField(AB, [Int(U8, 0), Int(U16, 0)], [Int(U8, 0), Int(U16, 0)], 0, [1, 2, 3], 0, invoke)
         == Ok(Decoded(Int(U8, 1), 1))
  {
    PlainFieldOfBytes(AB, [Int(U8, 0), Int(U16, 0)], [Int(U8, 0), Int(U16, 0)], 0, [], [1], [2, 3], invoke);
    assert [] + [1] + [2, 3] == [1, 2, 3];
  }

  /** Field b of AB, with a already read, reads the next two bytes. */
  lemma ByteFirstB(invoke: Invoker)
    ensures ReadIntoField(AB, [Int(U8, 0), Int(U16, 0)], [Int(U8, 1), Int(U16, 0)], 1, [1, 2, 3], 1, invoke)
         == Ok(Decoded(Int(U16, 0x0302), 3))
  {
    PlainFieldOfBytes(AB, [Int(U8, 0), Int(U16, 0)], [Int(U8, 1), Int(U16, 0)], 1, [1], [2, 3], [], invoke);
    assert [1] + [2, 3] + [] == [1, 2, 3];
    assert LittleEndian([2, 3]) == 0x0302;
  }

  /** Over the bytes 01 02 03, `{a: byte, b: ushort}` gives a = 0x01 and b = 0x0302. */
  lemma SwapExampleByteFirst(invoke: Invoker)
    ensures ReadIntoStruct(AB, Initial(AB.fields), [1, 2, 3], 0, invoke)
         == Ok(Decoded(Record(AB, [Int(U8, 1), Int(U16, 0x0302)]), 3))
  {
    var data: seq<byte> := [1, 2, 3];
    var orig := [Int(U8, 0), Int(U16, 0)];
    var vals := [Int(U8, 1), Int(U16, 0x0302)];
    var starts: seq<nat> := [0, 1, 3];
    InitialOfTwo(IntField("a", U8), IntField("b", U16));
    forall j | 0 <= j < 2
      ensures ReadIntoField(AB, orig, Partial(orig, vals, j), j, data, starts[j], invoke) == Ok(Decoded(vals[j], starts[j + 1]))
    {
      if j == 0 {
        assert Partial(orig, vals, 0) == orig;
        ByteFirstA(invoke);
      } else {
        assert Partial(orig, vals, 1) == [Int(U8, 1), Int(U16, 0)];
        ByteFirstB(invoke);
      }
    }
    InlineFieldsInDeclarationOrder(AB, orig, vals, starts, data, invoke);
  }

  /** Field b of BA over 01 02 03 reads the first two bytes. */
  lemma ShortFirstB(invoke: Invoker)
    ensures ReadIntoField(BA, [Int(U16, 0), Int(U8, 0)], [Int(U16, 0), Int(U8, 0)], 0, [1, 2, 3], 0, invoke)
         == Ok(Decoded(Int(U16, 0x0201), 2))
  {
    PlainFieldOfBytes(BA, [Int(U16, 0), Int(U8, 0)], [Int(U16, 0), Int(U8, 0)], 0, [], [1, 2], [3], invoke);
    assert [] + [1, 2] + [3] == [1, 2, 3];
    assert LittleEndian([1, 2]) == 0x0201;
  }

  /** Field a of BA, with b already read, reads the third byte. */
  lemma ShortFirstA(invoke: Invoker)
    ensures ReadIntoField(BA, [Int(U16, 0), Int(U8, 0)], [Int(U16, 0x0201), Int(U8, 0)], 1, [1, 2, 3], 2, invoke)
         == Ok(Decoded(Int(U8, 3), 3))
  {
    PlainFieldOfBytes(BA, [Int(U16, 0), Int(U8, 0)], [Int(U16, 0x0201), Int(U8, 0)], 1, [1, 2], [3], [], invoke);
    assert [1, 2] + [3] + [] == [1, 2, 3];
  }

  /** Over the same bytes, `{b: ushort, a: byte}` gives b = 0x0201 and a = 0x03. */
  lemma SwapExampleShortFirst(invoke: Invoker)
    ensures ReadIntoStruct(BA, Initial(BA.fields), [1, 2, 3], 0, invoke)
         == Ok(Decoded(Record(BA, [Int(U16, 0x0201), Int(U8, 3)]), 3))
  {
    var data: seq<byte> := [1, 2, 3];
    var orig := [Int(U16, 0), Int(U8, 0)];
    var vals := [Int(U16, 0x0201), Int(U8, 3)];
    var starts: seq<nat> := [0, 2, 3];
    InitialOfTwo(IntField("b", U16), IntField("a", U8));
    forall j | 0 <= j < 2
      ensures ReadIntoField(BA, orig, Partial(orig, vals, j), j, data, starts[j], invoke) == Ok(Decoded(vals[j], starts[j + 1]))
    {
      if j == 0 {
        assert Partial(orig, vals, 0) == orig;
        ShortFirstB(invoke);
      } else {
        assert Partial(orig, vals, 1) == [Int(U16, 0x0201), Int(U8, 0)];
        ShortFirstA(invoke);
      }
    }
    InlineFieldsInDeclarationOrder(BA, orig, vals, starts, data, invoke);
  }

  // ---------------------------------------------------------------------------
  // An array whose length another field gives
  // ---------------------------------------------------------------------------

  /** `items` is a byte array whose length is the value of `count`. */
  const CountedItems := Field("items", Arr(Prim(U8)), None, false, false, false, Some(ArraySizeFromMember("count")), None, [])
  const Counted := Layout("Counted", [IntField("count", U32), CountedItems], [], [], true)
  const CountedBytes: seq<byte> := [3, 0, 0, 0, 0xAA, 0xBB, 0xCC]

  lemma CountedCount(invoke: Invoker)
    ensures Initial(Counted.fields) == [Int(U32, 0), Null]
    ensures ReadIntoField(Counted, [Int(U32, 0), Null], [Int(U32, 0), Null], 0, CountedBytes, 0, invoke)
         == Ok(Decoded(Int(U32, 3), 4))
  {
    var orig := [Int(U32, 0), Null];
    InitialOfTwo(IntField("count", U32), CountedItems);
    FieldReadsCurrentValue(Counted, orig, orig, 0, CountedBytes, 0, invoke, Prim(U32));
    ReadOfInt(U32, 0, true, CountedBytes, 0, invoke);
    ReadIntOfBytes(U32, true, [], [3, 0, 0, 0], [0xAA, 0xBB, 0xCC]);
    assert [] + [3, 0, 0, 0] + [0xAA, 0xBB, 0xCC] == CountedBytes;
    assert LittleEndian([3, 0, 0, 0]) == 3;
  }

  lemma CountedSize(invoke: Invoker)
    ensures GetArraySize(ArraySizeFromMember("count"), Counted, [Int(U32, 3), Null], invoke) == Ok(3)
  {
    var inst := [Int(U32, 3), Null];
    assert !ContainsCall("count");
    assert FieldIndex(Counted.fields, "count") == Some(0);
    assert InferMember(0, Some("count"), Counted, inst, invoke) == Ok(3);
  }

  lemma CountedItemsRead(invoke: Invoker)
    ensures ReadIntoField(Counted, [Int(U32, 0), Null], [Int(U32, 3), Null], 1, CountedBytes, 4, invoke)
         == Ok(Decoded(Array(Prim(U8), [Int(U8, 0xAA), Int(U8, 0xBB), Int(U8, 0xCC)]), 7))
  {
    var orig := [Int(U32, 0), Null];
    var inst := [Int(U32, 3), Null];
    var bytes: seq<byte> := [0xAA, 0xBB, 0xCC];
    assert ReadIntoField(Counted, orig, inst, 1, CountedBytes, 4, invoke)
        == Read(Array(Prim(U8), Zeros(Prim(U8), 3)), true, CountedBytes, 4, invoke) by {
      assert SelectType([], Arr(Prim(U8)), Counted, inst, invoke) == Ok(Arr(Prim(U8)));
      ArrayFieldReadsResolvedCount(Counted, orig, inst, 1, CountedBytes, 4, invoke, Prim(U8));
      CountedSize(invoke);
    }
    assert Read(Array(Prim(U8), Zeros(Prim(U8), 3)), true, CountedBytes, 4, invoke)
        == Ok(Decoded(Array(Prim(U8), ByteValues(bytes)), 7)) by {
      ReadByteArray(Zeros(Prim(U8), 3), true, [3, 0, 0, 0], bytes, [], invoke);
      assert [3, 0, 0, 0] + bytes + [] == CountedBytes;
    }
    assert ByteValues(bytes) == [Int(U8, 0xAA), Int(U8, 0xBB), Int(U8, 0xCC)];
  }

  /** `{count: uint, items: byte[count]}` over 03 00 00 00 AA BB CC gives count = 3 and items = [AA, BB, CC]. */
  lemma CountedExample(invoke: Invoker)
    ensures ReadIntoStruct(Counted, Initial(Counted.fields), CountedBytes, 0, invoke)
         == Ok(Decoded(Record(Counted, [Int(U32, 3), Array(Prim(U8), [Int(U8, 0xAA), Int(U8, 0xBB), Int(U8, 0xCC)])]), 7))
  {
    var orig := [Int(U32, 0), Null];
    var vals := [Int(U32, 3), Array(Prim(U8), [Int(U8, 0xAA), Int(U8, 0xBB), Int(U8, 0xCC)])];
    var starts: seq<nat> := [0, 4, 7];
    CountedCount(invoke);
    forall j | 0 <= j < 2
      ensures ReadIntoField(Counted, orig, Partial(orig, vals, j), j, CountedBytes, starts[j], invoke) == Ok(Decoded(vals[j], starts[j + 1]))
    {
      if j == 0 {
        assert Partial(orig, vals, 0) == orig;
      } else {
        assert Partial(orig, vals, 1) == [Int(U32, 3), Null];
        CountedItemsRead(invoke);
      }
    }
    InlineFieldsInDeclarationOrder(Counted, orig, vals, starts, CountedBytes, invoke);
  }

  // ---------------------------------------------------------------------------
  // A skipped field keeps the value its initialiser gave it
  // ---------------------------------------------------------------------------

  /** `[InternalUse] public int n = 3;` followed by `[ArraySize("n")] public byte[] b;`. */
  const PresetCount := Field("n", Prim(I32), Some(Int(I32, 3)), false, false, true, None, None, [])
  const PresetItems := Field("b", Arr(Prim(U8)), None, false, false, false, Some(ArraySizeFromMember("n")), None, [])
  const Preset := Layout("Preset", [PresetCount, PresetItems], [], [], true)
  const PresetBytes: seq<byte> := [1, 2, 3]

  lemma PresetItemsRead(invoke: Invoker)
    ensures ReadIntoField(Preset, [Int(I32, 3), Null], [Int(I32, 3), Null], 1, PresetBytes, 0, invoke)
         == Ok(Decoded(Array(Prim(U8), [Int(U8, 1), Int(U8, 2), Int(U8, 3)]), 3))
  {
    var inst := [Int(I32, 3), Null];
    assert ReadIntoField(Preset, inst, inst, 1, PresetBytes, 0, invoke)
        == Read(Array(Prim(U8), Zeros(Prim(U8), 3)), true, PresetBytes, 0, invoke) by {
      assert SelectType([], Arr(Prim(U8)), Preset, inst, invoke) == Ok(Arr(Prim(U8)));
      ArrayFieldReadsResolvedCount(Preset, inst, inst, 1, PresetBytes, 0, invoke, Prim(U8));
      assert !ContainsCall("n");
      assert FieldIndex(Preset.fields, "n") == Some(0);
      assert InferMember(0, Some("n"), Preset, inst, invoke) == Ok(3);
    }
    assert Read(Array(Prim(U8), Zeros(Prim(U8), 3)), true, PresetBytes, 0, invoke)
        == Ok(Decoded(Array(Prim(U8), ByteValues(PresetBytes)), 3)) by {
      ReadByteArray(Zeros(Prim(U8), 3), true, [], PresetBytes, [], invoke);
      assert [] + PresetBytes + [] == PresetBytes;
    }
    assert ByteValues(PresetBytes) == [Int(U8, 1), Int(U8, 2), Int(U8, 3)];
  }

  /** The fields of Preset read over 01 02 03 from a fresh instance: n is skipped, b takes all three bytes. */
  lemma PresetStruct(invoke: Invoker)
    ensures ReadIntoStruct(Preset, [Int(I32, 3), Null], PresetBytes, 0, invoke)
         == Ok(Decoded(Record(Preset, [Int(I32, 3), Array(Prim(U8), [Int(U8, 1), Int(U8, 2), Int(U8, 3)])]), 3))
  {
    var orig := [Int(I32, 3), Null];
    var vals := [Int(I32, 3), Array(Prim(U8), [Int(U8, 1), Int(U8, 2), Int(U8, 3)])];
    var starts: seq<nat> := [0, 0, 3];
    assert Partial(orig, vals, 1) == orig;
    PresetItemsRead(invoke);
    assert !ReadInline(Preset.fields[0]);
    FieldsInDeclarationOrder(Preset, orig, vals, starts, PresetBytes, invoke);
    assert OffsetIndices(Preset, 0) == [] by {
      assert OffsetIndices(Preset, 2) == [];
      assert OffsetIndices(Preset, 1) == [];
    }
  }

  /**
   * `Read<Preset>()` over 01 02 03: the skipped n keeps its initial 3, so b has
   * three elements and the cursor ends after them.
   */
  lemma InitialiserExample(invoke: Invoker)
    ensures ReadObject(Struct(Preset), PresetBytes, 0, invoke)
         == Ok(Decoded(Record(Preset, [Int(I32, 3), Array(Prim(U8), [Int(U8, 1), Int(U8, 2), Int(U8, 3)])]), 3))
  {
    InitialOfTwo(PresetCount, PresetItems);
    assert Default(Struct(Preset)) == Record(Preset, [Int(I32, 3), Null]);
    PresetStruct(invoke);
  }

  // ---------------------------------------------------------------------------
  // Type selection by a discriminator field
  // ---------------------------------------------------------------------------

  const TypeA := Layout("TypeA", [IntField("x", U8)], [], [], true)
  const TypeB := Layout("TypeB", [IntField("y", U16)], [], [], true)

  /** `payload` is declared with an interface type and starts out null; `tag` selects TypeA (0) or TypeB (1). */
  const Payload := Field("payload", Unsupported, None, false, false, false, None, None,
    [ReadTypeAttribute(Struct(TypeA), Some("tag"), 0), ReadTypeAttribute(Struct(TypeB), Some("tag"), 1)])
  const Tagged := Layout("Tagged", [IntField("tag", U8), Payload], [], [], true)

  /** The tag field as a discriminator resolves to the tag byte. */
  lemma TagValue(tag: byte, invoke: Invoker, rule: ReadTypeAttribute)
    requires rule.field == Some("tag")
    ensures GetTypeValue(rule, Tagged, [Int(U8, tag), Null], invoke) == Ok(tag)
  {
    assert !ContainsCall("tag");
    assert FieldIndex(Tagged.fields, "tag") == Some(0);
  }

  lemma SelectTypeB(invoke: Invoker)
    ensures SelectType(Payload.readTypes, Unsupported, Tagged, [Int(U8, 1), Null], invoke) == Ok(Struct(TypeB))
  {
    TagValue(1, invoke, Payload.readTypes[0]);
    TagValue(1, invoke, Payload.readTypes[1]);
    assert NoMatchBefore(Payload.readTypes, 1, Tagged, [Int(U8, 1), Null], invoke);
  }

  lemma NoTypeSelected(invoke: Invoker)
    ensures SelectType(Payload.readTypes, Unsupported, Tagged, [Int(U8, 2), Null], invoke) == Ok(Unsupported)
  {
    TagValue(2, invoke, Payload.readTypes[0]);
    TagValue(2, invoke, Payload.readTypes[1]);
    assert NoMatchBefore(Payload.readTypes, 2, Tagged, [Int(U8, 2), Null], invoke);
  }

  lemma TaggedTag(tag: byte, rest: seq<byte>, invoke: Invoker)
    ensures Initial(Tagged.fields) == [Int(U8, 0), Null]
    ensures ReadIntoField(Tagged, [Int(U8, 0), Null], [Int(U8, 0), Null], 0, [tag] + rest, 0, invoke)
         == Ok(Decoded(Int(U8, tag), 1))
  {
    var orig := [Int(U8, 0), Null];
    InitialOfTwo(IntField("tag", U8), Payload);
    FieldReadsCurrentValue(Tagged, orig, orig, 0, [tag] + rest, 0, invoke, Prim(U8));
    ReadIntOfBytes(U8, true, [], [tag], rest);
    assert [] + [tag] + rest == [tag] + rest;
  }

  /** TypeB's single field over 34 12 after the tag byte. */
  lemma TypeBRead(invoke: Invoker)
    ensures Read(Default(Struct(TypeB)), true, [1, 0x34, 0x12], 1, invoke) == Ok(Decoded(Record(TypeB, [Int(U16, 0x1234)]), 3))
  {
    var data: seq<byte> := [1, 0x34, 0x12];
    var orig := [Int(U16, 0)];
    var vals := [Int(U16, 0x1234)];
    var starts: seq<nat> := [1, 3];
    assert Initial(TypeB.fields) == orig;
    forall j | 0 <= j < 1
      ensures ReadIntoField(TypeB, orig, Partial(orig, vals, j), j, data, starts[j], invoke) == Ok(Decoded(vals[j], starts[j + 1]))
    {
      assert Partial(orig, vals, 0) == orig;
      PlainFieldOfBytes(TypeB, orig, orig, 0, [1], [0x34, 0x12], [], invoke);
      assert [1] + [0x34, 0x12] + [] == data;
      assert LittleEndian([0x34, 0x12]) == 0x1234;
    }
    InlineFieldsInDeclarationOrder(TypeB, orig, vals, starts, data, invoke);
  }

  /** With tag 1 in place, the payload is read as a fresh TypeB. */
  lemma TaggedPayload(invoke: Invoker)
    ensures ReadIntoField(Tagged, [Int(U8, 0), Null], [Int(U8, 1), Null], 1, [1, 0x34, 0x12], 1, invoke)
         == Ok(Decoded(Record(TypeB, [Int(U16, 0x1234)]), 3))
  {
    SelectTypeB(invoke);
    FieldReadsFreshInstance(Tagged, [Int(U8, 0), Null], [Int(U8, 1), Null], 1, [1, 0x34, 0x12], 1, invoke, Struct(TypeB));
    TypeBRead(invoke);
  }

  /** `{tag: byte, payload}` over 01 34 12: the tag selects TypeB, whose ushort reads 0x1234. */
  lemma DiscriminatedExample(invoke: Invoker)
    ensures ReadIntoStruct(Tagged, Initial(Tagged.fields), [1, 0x34, 0x12], 0, invoke)
         == Ok(Decoded(Record(Tagged, [Int(U8, 1), Record(TypeB, [Int(U16, 0x1234)])]), 3))
  {
    var data: seq<byte> := [1, 0x34, 0x12];
    var orig := [Int(U8, 0), Null];
    var vals := [Int(U8, 1), Record(TypeB, [Int(U16, 0x1234)])];
    var starts: seq<nat> := [0, 1, 3];
    TaggedTag(1, [0x34, 0x12], invoke);
    forall j | 0 <= j < 2
      ensures ReadIntoField(Tagged, orig, Partial(orig, vals, j), j, data, starts[j], invoke) == Ok(Decoded(vals[j], starts[j + 1]))
    {
      if j == 0 {
        assert Partial(orig, vals, 0) == orig;
        assert [1] + [0x34, 0x12] == data;
      } else {
        assert Partial(orig, vals, 1) == [Int(U8, 1), Null];
        TaggedPayload(invoke);
      }
    }
    InlineFieldsInDeclarationOrder(Tagged, orig, vals, starts, data, invoke);
  }

  /** With tag 02 no rule matches: the declared interface type is instantiated, which fails. */
  lemma UnmatchedTagFails(invoke: Invoker)
    ensures ReadIntoStruct(Tagged, Initial(Tagged.fields), [2, 0x34, 0x12], 0, invoke) == Err(NoParameterlessConstructor)
  {
    var data: seq<byte> := [2, 0x34, 0x12];
    var orig := [Int(U8, 0), Null];
    var inst1 := [Int(U8, 2), Null];
    TaggedTag(2, [0x34, 0x12], invoke);
    assert [2] + [0x34, 0x12] == data;
    InlinePassReadStep(Tagged, orig, 0, orig, [], data, 0, invoke, Decoded(Int(U8, 2), 1));
    assert orig[0 := Int(U8, 2)] == inst1;
    NoTypeSelected(invoke);
    FieldReadsFreshInstance(Tagged, orig, inst1, 1, data, 1, invoke, Unsupported);
    assert ReadIntoField(Tagged, orig, inst1, 1, data, 1, invoke) == Err(NoParameterlessConstructor);
  }

  // ---------------------------------------------------------------------------
  // A terminated array reads nothing
  // ---------------------------------------------------------------------------

  const Tail := Layout("Tail", [Field("rest", Arr(Prim(U8)), None, false, false, false,
                                     Some(ArraySizeTerminated(ArrayProperty.TerminatedAtEndOfFile)), None, [])], [], [], true)

  /**
   * A byte array terminated at end of file, as the sole field over five bytes:
   * its size resolves to 0, so it reads as an empty array and the cursor stays put.
   */
  lemma EndOfFileArrayExample(invoke: Invoker)
    ensures ReadIntoStruct(Tail, Initial(Tail.fields), [1, 2, 3, 4, 5], 0, invoke)
         == Ok(Decoded(Record(Tail, [Array(Prim(U8), [])]), 0))
  {
    var data: seq<byte> := [1, 2, 3, 4, 5];
    var orig := [Null];
    var inst1 := [Array(Prim(U8), [])];
    assert Initial(Tail.fields) == orig;
    TerminatedArrayFieldIsEmpty(Tail, orig, orig, 0, data, 0, invoke, Prim(U8), ArrayProperty.TerminatedAtEndOfFile);
    InlinePassReadStep(Tail, orig, 0, orig, [], data, 0, invoke, Decoded(Array(Prim(U8), []), 0));
    assert orig[0 := Array(Prim(U8), [])] == inst1;
    InlinePassDone(Tail, orig, inst1, [], data, 0, invoke);
    StructOfInlinePass(Tail, orig, data, 0, invoke, InlineState(inst1, [], 0));
  }

  // ---------------------------------------------------------------------------
  // An Offset field is read after the inline fields, at its offset
  // ---------------------------------------------------------------------------

  const Far := Field("far", Prim(U8), Some(Int(U8, 0)), false, false, false, None, Some(OffsetAt(2)), [])
  const Seeking := Layout("Seeking", [IntField("head", U8), Far], [], [], true)

  const SeekingBytes: seq<byte> := [0x10, 0x20, 0x30]

  /** The inline pass reads head and queues far. */
  lemma SeekingInline(invoke: Invoker)
    ensures Initial(Seeking.fields) == [Int(U8, 0), Int(U8, 0)]
    ensures InlinePass(Seeking, [Int(U8, 0), Int(U8, 0)], 0, [Int(U8, 0), Int(U8, 0)], [], SeekingBytes, 0, invoke)
         == Ok(InlineState([Int(U8, 0x10), Int(U8, 0)], [1], 1))
  {
    var orig := [Int(U8, 0), Int(U8, 0)];
    var inst1 := [Int(U8, 0x10), Int(U8, 0)];
    InitialOfTwo(IntField("head", U8), Far);
    FieldReadsCurrentValue(Seeking, orig, orig, 0, SeekingBytes, 0, invoke, Prim(U8));
    ReadIntOfBytes(U8, true, [], [0x10], [0x20, 0x30]);
    assert [] + [0x10] + [0x20, 0x30] == SeekingBytes;
    InlinePassReadStep(Seeking, orig, 0, orig, [], SeekingBytes, 0, invoke, Decoded(Int(U8, 0x10), 1));
    assert orig[0 := Int(U8, 0x10)] == inst1;
    InlinePassDeferStep(Seeking, orig, 1, inst1, [], SeekingBytes, 1, invoke);
    assert [] + [1] == [1];
    InlinePassDone(Seeking, orig, inst1, [1], SeekingBytes, 1, invoke);
  }

  /** The deferred pass seeks to 2 and reads far there. */
  lemma SeekingDeferred(invoke: Invoker)
    ensures DeferredOk(Seeking, [Int(U8, 0), Int(U8, 0)], [Int(U8, 0x10), Int(U8, 0)], [1], 2)
    ensures DeferredPass(Seeking, [Int(U8, 0), Int(U8, 0)], [Int(U8, 0x10), Int(U8, 0)], [1], SeekingBytes, invoke)
         == Ok([Int(U8, 0x10), Int(U8, 0x30)])
  {
    var orig := [Int(U8, 0), Int(U8, 0)];
    var inst1 := [Int(U8, 0x10), Int(U8, 0)];
    var inst2 := [Int(U8, 0x10), Int(U8, 0x30)];
    assert GetOffsetAttrContent(OffsetAt(2), Seeking, inst1, invoke) == Ok(2);
    assert ReadIntoField(Seeking, orig, inst1, 1, SeekingBytes, 2, invoke) == Ok(Decoded(Int(U8, 0x30), 3)) by {
      FieldReadsCurrentValue(Seeking, orig, inst1, 1, SeekingBytes, 2, invoke, Prim(U8));
      ReadIntOfBytes(U8, true, [0x10, 0x20], [0x30], []);
      assert [0x10, 0x20] + [0x30] + [] == SeekingBytes;
    }
    DeferredPassStep(Seeking, orig, inst1, [1], SeekingBytes, invoke, 2, Decoded(Int(U8, 0x30), 3));
    assert inst1[1 := Int(U8, 0x30)] == inst2;
  }

  /** The head field, read inline at 0 against the fresh instance. */
  lemma SeekingHead(invoke: Invoker)
    ensures ReadIntoField(Seeking, [Int(U8, 0), Int(U8, 0)], [Int(U8, 0), Int(U8, 0)], 0, SeekingBytes, 0, invoke)
         == Ok(Decoded(Int(U8, 0x10), 1))
  {
    var orig := [Int(U8, 0), Int(U8, 0)];
    FieldReadsCurrentValue(Seeking, orig, orig, 0, SeekingBytes, 0, invoke, Prim(U8));
    ReadIntOfBytes(U8, true, [], [0x10], [0x20, 0x30]);
    assert [] + [0x10] + [0x20, 0x30] == SeekingBytes;
  }

  /**
   * `{head: byte, [Offset(2)] far: byte}` over 10 20 30: head = 0x10, far = 0x30
   * read at offset 2, and the struct ends at 1, right after head.  The chain of
   * inline reads is head alone; far is passed over and then read by the deferred pass.
   */
  lemma OffsetExample(invoke: Invoker)
    ensures ReadIntoStruct(Seeking, Initial(Seeking.fields), SeekingBytes, 0, invoke)
         == Ok(Decoded(Record(Seeking, [Int(U8, 0x10), Int(U8, 0x30)]), 1))
  {
    var orig := [Int(U8, 0), Int(U8, 0)];
    var vals := [Int(U8, 0x10), Int(U8, 0)];
    var starts: seq<nat> := [0, 1, 1];
    InitialOfTwo(IntField("head", U8), Far);
    SeekingHead(invoke);
    assert Partial(orig, vals, 0) == orig;
    assert !ReadInline(Seeking.fields[1]);
    FieldsInDeclarationOrder(Seeking, orig, vals, starts, SeekingBytes, invoke);
    assert OffsetIndices(Seeking, 0) == [1] by {
      assert OffsetIndices(Seeking, 2) == [];
      assert OffsetIndices(Seeking, 1) == [1];
    }
    SeekingDeferred(invoke);
  }
}

=== FILE: reader_properties.dfy ===
/**
 * Properties of the value decoders: fixed-width integers, NUL-terminated strings,
 * byte arrays and element-by-element arrays.
 *
 * The integer and string decoders get an encoder as their partner: the bytes a
 * value of that kind occupies in the stream.  Decoding those bytes gives the
 * value back, and encoding a decoded value gives back the bytes it came from.
 */
module ReaderProperties {
  import opened Wrappers
  import opened Endian
  import opened Attributes
  import opened Schema
  import opened Resolver
  import opened FormattedReader

  // ---------------------------------------------------------------------------
  // Fixed-width integers
  // ---------------------------------------------------------------------------

  /** The unsigned bit pattern that stores n in a value of kind k (two's complement for signed kinds). */
  function Bits(k: IntKind, n: int): (u: nat)
    requires InRange(k, n)
    ensures u < Pow256(Width(k))
    ensures IsSigned(k) ==> ToSigned(u, Width(k)) == n
    ensures !IsSigned(k) ==> u == n
  {
    if IsSigned(k) then FromSigned(n, Width(k)) else n
  }

  /** The bytes an integer n of kind k occupies in the stream, in the given byte order. */
  function EncodeInt(k: IntKind, littleEndian: bool, n: int): (bs: seq<byte>)
    requires InRange(k, n)
    ensures |bs| == Width(k)
  {
    if littleEndian then EncodeLittle(Bits(k, n), Width(k)) else EncodeBig(Bits(k, n), Width(k))
  }

  /** A single byte means the same in either byte order. */
  lemma SingleByte(bs: seq<byte>)
    requires |bs| == 1
    ensures LittleEndian(bs) == bs[0] && BigEndian(bs) == bs[0]
  {
    assert bs[1..] == [];
    assert bs[..0] == [];
  }

  /** An integer read over known bytes: the bytes after the cursor, taken as the kind's number. */
  lemma ReadIntOfBytes(k: IntKind, littleEndian: bool, prefix: seq<byte>, bs: seq<byte>, rest: seq<byte>)
    requires |bs| == Width(k)
    ensures ReadInt(k, littleEndian, prefix + bs + rest, |prefix|)
         == Ok(Decoded(Int(k, if k == U8 then bs[0] else Number(k, littleEndian, bs)), |prefix| + |bs|))
  {
    var data := prefix + bs + rest;
    assert Remaining(data, |prefix|)[..Width(k)] == bs;
  }

  /** Decoding an encoded integer gives it back and consumes exactly its width. */
  lemma ReadIntOfEncoded(k: IntKind, littleEndian: bool, n: int, prefix: seq<byte>, rest: seq<byte>)
    requires InRange(k, n)
    ensures ReadInt(k, littleEndian, prefix + EncodeInt(k, littleEndian, n) + rest, |prefix|)
         == Ok(Decoded(Int(k, n), |prefix| + Width(k)))
  {
    var bs := EncodeInt(k, littleEndian, n);
    ReadIntOfBytes(k, littleEndian, prefix, bs, rest);
    if k == U8 {
      SingleByte(bs);
    }
  }

  /** Encoding a decoded integer gives back the bytes it was decoded from. */
  lemma EncodeIntOfRead(k: IntKind, littleEndian: bool, data: seq<byte>, pos: nat)
    requires pos + Width(k) <= |data|
    ensures var r := ReadInt(k, littleEndian, data, pos);
      r.Ok? && EncodeInt(k, littleEndian, r.value.value.n) == data[pos..pos + Width(k)]
  {
    var w := Width(k);
    var bs := data[pos..pos + w];
    assert Remaining(data, pos)[..w] == bs;
    var u := if littleEndian then LittleEndian(bs) else BigEndian(bs);
    var n := ReadInt(k, littleEndian, data, pos).value.value.n;
    assert Bits(k, n) == u by {
      if k == U8 {
        SingleByte(bs);
      } else if IsSigned(k) {
        assert n == ToSigned(u, w);
        ToSignedInjective(Bits(k, n), u, w);
      }
    }
    assert (if littleEndian then EncodeLittle(u, w) else EncodeBig(u, w)) == bs by {
      if littleEndian {
        EncodeLittleOfLittleEndian(bs);
      } else {
        BigEndianIsReversedLittleEndian(bs);
        EncodeLittleOfLittleEndian(Reverse(bs));
        ReverseInvolutive(bs);
      }
    }
  }

  /**
   * Byte-order property: a big-endian read gives what a little-endian read gives
   * over the same stream with the integer's bytes reversed.
   */
  lemma BigEndianReadIsReversedRead(k: IntKind, prefix: seq<byte>, bs: seq<byte>, rest: seq<byte>)
    requires |bs| == Width(k)
    ensures ReadInt(k, false, prefix + bs + rest, |prefix|) == ReadInt(k, true, prefix + Reverse(bs) + rest, |prefix|)
  {
    var rs := Reverse(bs);
    var big := if k == U8 then bs[0] else Number(k, false, bs);
    var little := if k == U8 then rs[0] else Number(k, true, rs);
    assert ReadInt(k, false, prefix + bs + rest, |prefix|) == Ok(Decoded(Int(k, big), |prefix| + |bs|)) by {
      ReadIntOfBytes(k, false, prefix, bs, rest);
    }
    assert ReadInt(k, true, prefix + rs + rest, |prefix|) == Ok(Decoded(Int(k, little), |prefix| + |rs|)) by {
      ReadIntOfBytes(k, true, prefix, rs, rest);
    }
    assert big == little by {
      if k == U8 {
        assert rs == bs;
      } else {
        BigEndianIsReversedLittleEndian(bs);
      }
    }
  }

  /** A fixed-width read with fewer bytes left than the width fails; nothing is zero-filled. */
  lemma TruncatedIntFails(k: IntKind, littleEndian: bool, data: seq<byte>, pos: nat)
    requires |Remaining(data, pos)| < Width(k)
    ensures ReadInt(k, littleEndian, data, pos) == Err(EndOfData)
  {
  }

  /** `Read<T>` over an integer or enum type starts little-endian; an enum reads exactly as its underlying kind. */
  lemma ReadObjectOfEncodedInt(k: IntKind, n: int, prefix: seq<byte>, rest: seq<byte>, invoke: Invoker)
    requires InRange(k, n)
    ensures var data := prefix + EncodeInt(k, true, n) + rest;
      && ReadObject(Prim(k), data, |prefix|, invoke) == Ok(Decoded(Int(k, n), |prefix| + Width(k)))
      && ReadObject(Enum(k), data, |prefix|, invoke) == Ok(Decoded(Int(k, n), |prefix| + Width(k)))
  {
    ReadIntOfEncoded(k, true, n, prefix, rest);
  }

  /** A 4-byte integer against only 2 remaining bytes fails. */
  lemma TruncatedInt32Example(invoke: Invoker)
    ensures ReadObject(Prim(I32), [0x01, 0x02], 0, invoke) == Err(EndOfData)
  {
    TruncatedIntFails(I32, true, [0x01, 0x02], 0);
  }

  // ---------------------------------------------------------------------------
  // NUL-terminated strings
  // ---------------------------------------------------------------------------

  predicate NoZero(s: seq<byte>) {
    forall i :: 0 <= i < |s| ==> s[i] != 0
  }

  /** The bytes a string occupies in the stream: its UTF-8 bytes and the terminating zero. */
  function EncodeText(s: seq<byte>): (bs: seq<byte>)
    requires NoZero(s)
    ensures |bs| == |s| + 1 && bs[|s|] == 0 && bs[..|s|] == s
  {
    s + [0]
  }

  /** Decoding an encoded string gives it back, consuming the bytes and the terminator and no more. */
  lemma {:induction false} ReadTextOfEncoded(old_: seq<byte>, s: seq<byte>, prefix: seq<byte>, rest: seq<byte>, littleEndian: bool, invoke: Invoker)
    requires NoZero(s)
    ensures Read(Text(old_), littleEndian, prefix + EncodeText(s) + rest, |prefix|, invoke)
         == Ok(Decoded(Text(s), |prefix| + |s| + 1))
  {
    var data := prefix + EncodeText(s) + rest;
    var pos := |prefix|;
    assert data[pos + |s|] == 0;
    var r := ReadNulTerminated(data, pos);
    assert r.Ok?;
    var (t, end) := r.value;
    // The terminator the read stopped at is the first zero from pos on, and so is the one after s.
    assert forall i :: pos <= i < pos + |s| ==> data[i] == s[i - pos];
    assert forall i :: pos <= i < end - 1 ==> data[i] == t[i - pos];
    assert end == pos + |s| + 1;
    assert t == s;
  }

  /** Encoding a decoded string gives back exactly the bytes the read consumed. */
  lemma EncodeTextOfRead(old_: seq<byte>, data: seq<byte>, pos: nat, littleEndian: bool, invoke: Invoker)
    requires Read(Text(old_), littleEndian, data, pos, invoke).Ok?
    ensures var d := Read(Text(old_), littleEndian, data, pos, invoke).value;
      d.value.Text? && NoZero(d.value.utf8) && EncodeText(d.value.utf8) == data[pos..d.pos]
  {
    var (s, end) := ReadNulTerminated(data, pos).value;
    assert data[pos..end] == data[pos..end - 1] + [data[end - 1]];
  }

  /** A string whose terminator never comes fails. */
  lemma UnterminatedTextFails(old_: seq<byte>, data: seq<byte>, pos: nat, littleEndian: bool, invoke: Invoker)
    requires NoZero(Remaining(data, pos))
    ensures Read(Text(old_), littleEndian, data, pos, invoke) == Err(EndOfData)
  {
    forall z | pos <= z < |data|
      ensures data[z] != 0
    {
      assert data[z] == Remaining(data, pos)[z - pos];
    }
  }

  /** `48 65 6C 6C 6F 00` reads as "Hello"; `00` reads as the empty string and advances the cursor by one. */
  lemma TextExamples(invoke: Invoker)
    ensures Read(Text([]), true, [0x48, 0x65, 0x6C, 0x6C, 0x6F, 0x00], 0, invoke)
         == Ok(Decoded(Text([0x48, 0x65, 0x6C, 0x6C, 0x6F]), 6))
    ensures Read(Text([]), true, [0x00], 0, invoke) == Ok(Decoded(Text([]), 1))
  {
    ReadTextOfEncoded([], [0x48, 0x65, 0x6C, 0x6C, 0x6F], [], [], true, invoke);
    assert [] + EncodeText([0x48, 0x65, 0x6C, 0x6C, 0x6F]) + [] == [0x48, 0x65, 0x6C, 0x6C, 0x6F, 0x00];
    ReadTextOfEncoded([], [], [], [], true, invoke);
    assert [] + EncodeText([]) + [] == [0x00];
  }

  // ---------------------------------------------------------------------------
  // Arrays
  // ---------------------------------------------------------------------------

  /**
   * The reference reading of n consecutive items: read one item with `step` at
   * the cursor, then the other n - 1 from where it ended; the first failure aborts.
   */
  function Repeat(step: nat -> Result<Decoded, ReadError>, n: nat, pos: nat): (r: Result<(seq<Value>, nat), ReadError>)
    ensures r.Ok? ==> |r.value.0| == n
    decreases n
  {
    if n == 0 then Ok(([], pos))
    else
      var first :- step(pos);
      var (others, end) :- Repeat(step, n - 1, first.pos);
      Ok(([first.value] + others, end))
  }

  /** Reading one element of type e at a position: a fresh instance of e, filled in the array's byte order. */
  function ElementReader(e: FieldType, littleEndian: bool, data: seq<byte>, invoke: Invoker): (step: nat -> Result<Decoded, ReadError>)
    ensures forall p: nat :: step(p) == Read(Default(e), littleEndian, data, p, invoke)
  {
    (p: nat) => Read(Default(e), littleEndian, data, p, invoke)
  }

  /** An element-by-element array is the reference reading of its elements, for every element type that can be instantiated. */
  lemma {:induction false} ReadIntoArrayIsRepeat(e: FieldType, n: nat, littleEndian: bool, data: seq<byte>, pos: nat, invoke: Invoker)
    requires Constructible(e)
    ensures ReadIntoArray(e, n, littleEndian, data, pos, invoke) == Repeat(ElementReader(e, littleEndian, data, invoke), n, pos)
    decreases n
  {
    if n > 0 {
      var step := ElementReader(e, littleEndian, data, invoke);
      var head := Read(Default(e), littleEndian, data, pos, invoke);
      assert step(pos) == head;
      if head.Err? {
        ReadIntoArrayHeadFails(e, n, littleEndian, data, pos, invoke);
      } else {
        ReadIntoArrayStep(e, n, littleEndian, data, pos, invoke, head.value);
        assert ReadIntoArray(e, n - 1, littleEndian, data, head.value.pos, invoke) == Repeat(step, n - 1, head.value.pos) by {
          ReadIntoArrayIsRepeat(e, n - 1, littleEndian, data, head.value.pos, invoke);
        }
      }
    }
  }

  /**
   * Reading m + n items is reading m items and then n more from where the first m
   * stopped: items are read in index order, back to back.
   */
  lemma {:induction false} RepeatSplit(step: nat -> Result<Decoded, ReadError>, m: nat, n: nat, pos: nat)
    ensures var whole := Repeat(step, m + n, pos);
      var first := Repeat(step, m, pos);
      && (first.Err? ==> whole == Err(first.error))
      && (first.Ok? ==>
            var rest := Repeat(step, n, first.value.1);
            && (rest.Err? ==> whole == Err(rest.error))
            && (rest.Ok? ==> whole == Ok((first.value.0 + rest.value.0, rest.value.1))))
    decreases m
  {
    if m == 0 {
      var rest := Repeat(step, n, pos);
      if rest.Ok? {
        assert [] + rest.value.0 == rest.value.0;
      }
    } else if step(pos).Ok? {
      var h := step(pos).value;
      assert m + n - 1 == (m - 1) + n;
      RepeatSplit(step, m - 1, n, h.pos);
      var first := Repeat(step, m - 1, h.pos);
      if first.Ok? {
        var rest := Repeat(step, n, first.value.1);
        if rest.Ok? {
          assert [h.value] + (first.value.0 + rest.value.0) == ([h.value] + first.value.0) + rest.value.0;
        }
      }
    }
  }

  /** Item i of a successful reading is what `step` reads where the first i items ended. */
  lemma RepeatItem(step: nat -> Result<Decoded, ReadError>, n: nat, i: nat, pos: nat)
    requires i < n && Repeat(step, n, pos).Ok?
    ensures Repeat(step, i, pos).Ok?
    ensures var at := Repeat(step, i, pos).value.1;
      step(at).Ok? && Repeat(step, n, pos).value.0[i] == step(at).value.value
  {
    RepeatSplit(step, i, n - i, pos);
    assert i + (n - i) == n;
    var first := Repeat(step, i, pos);
    var rest := Repeat(step, n - i, first.value.1);
    assert rest.Ok?;
  }

  /** Reading m + n array elements is reading m elements and then n more from where the first m stopped. */
  lemma ReadIntoArraySplit(e: FieldType, m: nat, n: nat, littleEndian: bool, data: seq<byte>, pos: nat, invoke: Invoker)
    requires Constructible(e)
    ensures var whole := ReadIntoArray(e, m + n, littleEndian, data, pos, invoke);
      var first := ReadIntoArray(e, m, littleEndian, data, pos, invoke);
      && (first.Err? ==> whole == Err(first.error))
      && (first.Ok? ==>
            var rest := ReadIntoArray(e, n, littleEndian, data, first.value.1, invoke);
            && (rest.Err? ==> whole == Err(rest.error))
            && (rest.Ok? ==> whole == Ok((first.value.0 + rest.value.0, rest.value.1))))
  {
    var step := ElementReader(e, littleEndian, data, invoke);
    var whole := ReadIntoArray(e, m + n, littleEndian, data, pos, invoke);
    var first := ReadIntoArray(e, m, littleEndian, data, pos, invoke);
    assert whole == Repeat(step, m + n, pos) by {
      ReadIntoArrayIsRepeat(e, m + n, littleEndian, data, pos, invoke);
    }
    assert first == Repeat(step, m, pos) by {
      ReadIntoArrayIsRepeat(e, m, littleEndian, data, pos, invoke);
    }
    RepeatSplit(step, m, n, pos);
    if first.Ok? {
      var rest := ReadIntoArray(e, n, littleEndian, data, first.value.1, invoke);
      assert rest == Repeat(step, n, first.value.1) by {
        ReadIntoArrayIsRepeat(e, n, littleEndian, data, first.value.1, invoke);
      }
    }
  }

  /**
   * Element i of an element-by-element array is a fresh instance of the element
   * type read at the position where element i - 1 ended, in the array's byte order.
   */
  lemma ReadIntoArrayElement(e: FieldType, n: nat, i: nat, littleEndian: bool, data: seq<byte>, pos: nat, invoke: Invoker)
    requires i < n && ReadIntoArray(e, n, littleEndian, data, pos, invoke).Ok?
    ensures ReadIntoArray(e, i, littleEndian, data, pos, invoke).Ok?
    ensures var at := ReadIntoArray(e, i, littleEndian, data, pos, invoke).value.1;
      var elem := Read(Default(e), littleEndian, data, at, invoke);
      elem.Ok? && ReadIntoArray(e, n, littleEndian, data, pos, invoke).value.0[i] == elem.value.value
  {
    ReadIntoArrayNeedsInstances(e, n, littleEndian, data, pos, invoke);
    var step := ElementReader(e, littleEndian, data, invoke);
    ReadIntoArrayIsRepeat(e, n, littleEndian, data, pos, invoke);
    ReadIntoArrayIsRepeat(e, i, littleEndian, data, pos, invoke);
    RepeatItem(step, n, i, pos);
  }

  /** A non-empty element array that was read has an element type with a parameterless constructor. */
  lemma ReadIntoArrayNeedsInstances(e: FieldType, n: nat, littleEndian: bool, data: seq<byte>, pos: nat, invoke: Invoker)
    requires n > 0 && ReadIntoArray(e, n, littleEndian, data, pos, invoke).Ok?
    ensures Constructible(e)
  {
  }

  /** One step of an element-by-element array: the first element, then the other n - 1 from where it ended. */
  lemma ReadIntoArrayStep(e: FieldType, n: nat, littleEndian: bool, data: seq<byte>, pos: nat, invoke: Invoker, head: Decoded)
    requires n > 0 && Constructible(e)
    requires Read(Default(e), littleEndian, data, pos, invoke) == Ok(head)
    ensures var rest := ReadIntoArray(e, n - 1, littleEndian, data, head.pos, invoke);
      ReadIntoArray(e, n, littleEndian, data, pos, invoke)
        == if rest.Err? then Err(rest.error) else Ok(([head.value] + rest.value.0, rest.value.1))
  {
  }

  /** When the first element fails, the whole array fails with its error. */
  lemma ReadIntoArrayHeadFails(e: FieldType, n: nat, littleEndian: bool, data: seq<byte>, pos: nat, invoke: Invoker)
    requires n > 0 && Constructible(e)
    requires Read(Default(e), littleEndian, data, pos, invoke).Err?
    ensures ReadIntoArray(e, n, littleEndian, data, pos, invoke) == Err(Read(Default(e), littleEndian, data, pos, invoke).error)
  {
  }

  /** Element types without a parameterless constructor (strings, arrays, interfaces, ...) make any non-empty element array fail. */
  lemma ReadIntoArrayOfStrings(e: FieldType, n: nat, littleEndian: bool, data: seq<byte>, pos: nat, invoke: Invoker)
    requires !Constructible(e)
    ensures ReadIntoArray(e, n, littleEndian, data, pos, invoke)
         == if n == 0 then Ok(([], pos)) else Err(NoParameterlessConstructor)
  {
  }

  /** Filling an integer value reads an integer of the same kind; the value it held does not matter. */
  lemma ReadOfInt(k: IntKind, x: int, littleEndian: bool, data: seq<byte>, pos: nat, invoke: Invoker)
    ensures Read(Int(k, x), littleEndian, data, pos, invoke) == ReadInt(k, littleEndian, data, pos)
  {
  }

  /** n integers of kind k read back to back with ReadInt: the reference reading of an integer array. */
  function ReadInts(k: IntKind, littleEndian: bool, n: nat, data: seq<byte>, pos: nat): (r: Result<(seq<Value>, nat), ReadError>)
    ensures r.Ok? ==> |r.value.0| == n
    decreases n
  {
    if n == 0 then Ok(([], pos))
    else
      var first :- ReadInt(k, littleEndian, data, pos);
      var (others, end) :- ReadInts(k, littleEndian, n - 1, data, first.pos);
      Ok(([first.value] + others, end))
  }

  /** An integer array is read exactly as its integers read one after the other. */
  lemma {:induction false} ReadIntoArrayOfInts(k: IntKind, n: nat, littleEndian: bool, data: seq<byte>, pos: nat, invoke: Invoker)
    ensures ReadIntoArray(Prim(k), n, littleEndian, data, pos, invoke) == ReadInts(k, littleEndian, n, data, pos)
    decreases n
  {
    if n > 0 {
      ReadOfInt(k, 0, littleEndian, data, pos, invoke);
      var first := ReadInt(k, littleEndian, data, pos);
      if first.Ok? {
        ReadIntoArrayStep(Prim(k), n, littleEndian, data, pos, invoke, first.value);
        ReadIntoArrayOfInts(k, n - 1, littleEndian, data, first.value.pos, invoke);
      }
    }
  }

  /** A byte array of length n over at least n remaining bytes is exactly those n bytes, and consumes them. */
  lemma ReadByteArray(items: seq<Value>, littleEndian: bool, prefix: seq<byte>, bs: seq<byte>, rest: seq<byte>, invoke: Invoker)
    requires |bs| == |items|
    ensures Read(Array(Prim(U8), items), littleEndian, prefix + bs + rest, |prefix|, invoke)
         == Ok(Decoded(Array(Prim(U8), ByteValues(bs)), |prefix| + |bs|))
  {
    var d := ReadBytesInto(items, prefix + bs + rest, |prefix|);
    assert d.value.items == ByteValues(bs);
  }

  /** A 4-element byte array over `AA BB CC DD` decodes to those four bytes. */
  lemma FixedByteArrayExample(invoke: Invoker)
    ensures Read(Array(Prim(U8), Zeros(Prim(U8), 4)), true, [0xAA, 0xBB, 0xCC, 0xDD], 0, invoke)
         == Ok(Decoded(Array(Prim(U8), [Int(U8, 0xAA), Int(U8, 0xBB), Int(U8, 0xCC), Int(U8, 0xDD)]), 4))
  {
    ReadByteArray(Zeros(Prim(U8), 4), true, [], [0xAA, 0xBB, 0xCC, 0xDD], [], invoke);
    assert [] + [0xAA, 0xBB, 0xCC, 0xDD] + [] == [0xAA, 0xBB, 0xCC, 0xDD];
    assert ByteValues([0xAA, 0xBB, 0xCC, 0xDD]) == [Int(U8, 0xAA), Int(U8, 0xBB), Int(U8, 0xCC), Int(U8, 0xDD)];
  }

  /** Near the end of the data a byte array is filled only as far as the data goes; the cursor stops at the end. */
  lemma ShortByteArray(items: seq<Value>, littleEndian: bool, data: seq<byte>, pos: nat, invoke: Invoker)
    requires pos <= |data| < pos + |items|
    ensures var r := Read(Array(Prim(U8), items), littleEndian, data, pos, invoke);
      && r.Ok? && r.value.pos == |data|
      && r.value.value.items == ByteValues(data[pos..]) + items[|data| - pos..]
  {
    var d := ReadBytesInto(items, data, pos);
    assert d.value.items == ByteValues(data[pos..]) + items[|data| - pos..];
  }

  // ---------------------------------------------------------------------------
  // End of stream and unsupported values
  // ---------------------------------------------------------------------------

  /** `EndOfStream` holds exactly when the cursor is at the length of the data. */
  lemma EndOfStreamAtLength(data: seq<byte>, pos: nat)
    ensures EndOfStream(data, pos) <==> pos == |data|
    ensures EndOfStream(data, pos) ==> ReadInt(U8, true, data, pos) == Err(EndOfData)
  {
  }

  /**
   * A value whose runtime type has no layout, or a null reference, fails without
   * consuming anything; a type without a layout cannot be instantiated at all.
   */
  lemma UnsupportedFails(littleEndian: bool, data: seq<byte>, pos: nat, invoke: Invoker)
    ensures Read(Opaque, littleEndian, data, pos, invoke) == Err(NoLayout)
    ensures Read(Null, littleEndian, data, pos, invoke) == Err(NullObject)
    ensures Instantiate(Unsupported) == Err(NoParameterlessConstructor)
  {
  }
}

=== FILE: reports.dfy ===
/**
 * `HTMLTable<TData>`: renders rows of a record type as an HTML table.
 *
 * In the source the columns are the record's fields that carry a HeaderName
 * attribute, ordered by their layout offset; here they are given explicitly, in
 * that order.  Each row holds the text of its cells in column order: the
 * `ToString()` of a scalar field, or of each item of an array field.
 */
module Reports {
  import opened Wrappers

  /** A column: its HeaderName, its ColumnSize (width in pixels) if any, and its MultiColumn count if any. */
  datatype Column = Column(header: string, width: Option<int>, multi: Option<int>)

  /** The text of one cell: a scalar field's value, or each item of an array field whose elements are of a reference type. */
  datatype Cell = Scalar(text: string) | Items(texts: seq<string>)

  /** The table: its columns, its rows, and its ClassName (null when absent). */
  datatype Table = Table(columns: seq<Column>, rows: seq<seq<Cell>>, className: Option<string>)

  // ---------------------------------------------------------------------------
  // Decimal numerals
  // ---------------------------------------------------------------------------

  predicate IsDigit(c: char) {
    '0' <= c <= '9'
  }

  /** `int.ToString()` for a non-negative value: its decimal digits, without leading zeros. */
  function NatToString(n: nat): (s: string)
    ensures |s| >= 1 && forall i :: 0 <= i < |s| ==> IsDigit(s[i])
    decreases n
  {
    var last := (('0' as int) + n % 10) as char;
    if n < 10 then [last] else NatToString(n / 10) + [last]
  }

  /** `int.ToString()`: a minus sign for negative values, then the digits. */
  function IntToString(n: int): (s: string)
    ensures |s| >= 1 && (s[0] == '-' <==> n < 0)
    ensures forall i :: 0 <= i < |s| ==> IsDigit(s[i]) || (i == 0 && n < 0)
  {
    if n < 0 then "-" + NatToString(-n) else NatToString(n)
  }

  /** The value of a string of decimal digits. */
  function ParseNat(s: string): nat
    requires forall i :: 0 <= i < |s| ==> IsDigit(s[i])
  {
    if s == [] then 0
    else
      assert IsDigit(s[|s| - 1]);
      ParseNat(s[..|s| - 1]) * 10 + (s[|s| - 1] as int - '0' as int)
  }

  /** The value of an optional minus sign followed by decimal digits. */
  function ParseInt(s: string): int
    requires forall i :: 0 <= i < |s| ==> IsDigit(s[i]) || (i == 0 && s[i] == '-')
  {
    if |s| > 0 && s[0] == '-' then
      assert forall i :: 0 <= i < |s[1..]| ==> s[1..][i] == s[i + 1];
      -(ParseNat(s[1..]) as int)
    else ParseNat(s)
  }

  lemma {:induction false} ParseNatToString(n: nat)
    ensures ParseNat(NatToString(n)) == n
    decreases n
  {
    var s := NatToString(n);
    if n >= 10 {
      ParseNatToString(n / 10);
      assert s[..|s| - 1] == NatToString(n / 10);
    }
  }

  /** Parsing the rendered number gives it back. */
  lemma ParseIntToString(n: int)
    ensures ParseInt(IntToString(n)) == n
  {
    if n < 0 {
      assert IntToString(n)[1..] == NatToString(-n);
      ParseNatToString(-n);
    } else {
      ParseNatToString(n);
    }
  }

  // ---------------------------------------------------------------------------
  // string.Join
  // ---------------------------------------------------------------------------

  /** `string.Join(sep, parts)`: the parts with sep between consecutive ones. */
  function Join(sep: string, parts: seq<string>): string
    decreases |parts|
  {
    if parts == [] then ""
    else if |parts| == 1 then parts[0]
    else parts[0] + sep + Join(sep, parts[1..])
  }

  /** Joining one more part appends the separator and the part. */
  lemma {:induction false} JoinAppend(sep: string, parts: seq<string>, last: string)
    requires parts != []
    ensures Join(sep, parts + [last]) == Join(sep, parts) + sep + last
    decreases |parts|
  {
    if |parts| > 1 {
      assert (parts + [last])[1..] == parts[1..] + [last];
      JoinAppend(sep, parts[1..], last);
    } else {
      assert (parts + [last])[1..] == [last];
    }
  }

  /** With no separator, joining is concatenation: joining two lists joins their joins. */
  lemma {:induction false} ConcatAppend(xs: seq<string>, ys: seq<string>)
    ensures Join("", xs + ys) == Join("", xs) + Join("", ys)
    decreases |xs|
  {
    if xs == [] {
      assert xs + ys == ys;
    } else {
      ConcatAppend(xs[1..], ys);
      assert (xs + ys)[1..] == xs[1..] + ys;
      ConcatFirst(xs + ys);
      ConcatFirst(xs);
    }
  }

  /** With no separator, a non-empty join is its first part followed by the join of the rest. */
  lemma ConcatFirst(xs: seq<string>)
    requires xs != []
    ensures Join("", xs) == xs[0] + Join("", xs[1..])
  {
    if |xs| == 1 {
      assert xs[1..] == [];
    }
  }

  // ---------------------------------------------------------------------------
  // The header
  // ---------------------------------------------------------------------------

  /** `MakeColumnHeader`: a `th` cell for the translated header name, with a width attribute for a ColumnSize. */
  function MakeColumnHeader(c: Column, translate: string -> string): string {
    match c.width
    case Some(w) => "<th width=\"" + IntToString(w) + "px\">" + translate(c.header) + "</th>"
    case None => "<th>" + translate(c.header) + "</th>"
  }

  /** The string s repeated k times; nothing when k is not positive. */
  function Repeat(s: string, k: int): (r: string)
    ensures |r| == (if k <= 0 then 0 else k) * |s|
    decreases k
  {
    if k <= 0 then "" else s + Repeat(s, k - 1)
  }

  /** Repeating a + b times is repeating a times, then b times. */
  lemma {:induction false} RepeatAdd(s: string, a: nat, b: nat)
    ensures Repeat(s, a + b) == Repeat(s, a) + Repeat(s, b)
    decreases a
  {
    if a > 0 {
      RepeatAdd(s, a - 1, b);
      assert a + b - 1 == (a - 1) + b;
    }
  }

  /** The header text of one column: its cell, or that cell repeated MultiColumn times. */
  function HeaderCells(c: Column, translate: string -> string): (r: string)
    ensures c.multi.None? ==> r == MakeColumnHeader(c, translate)
    ensures c.multi.Some? ==> r == Repeat(MakeColumnHeader(c, translate), c.multi.value)
  {
    match c.multi
    case Some(k) => Repeat(MakeColumnHeader(c, translate), k)
    case None => MakeColumnHeader(c, translate)
  }

  function HeaderTexts(columns: seq<Column>, translate: string -> string): (r: seq<string>)
    ensures |r| == |columns| && forall i :: 0 <= i < |columns| ==> r[i] == HeaderCells(columns[i], translate)
  {
    seq(|columns|, i requires 0 <= i < |columns| => HeaderCells(columns[i], translate))
  }

  /** `RenderHeader`: the columns' header texts, one per line (joined with CR LF). */
  function RenderHeader(columns: seq<Column>, translate: string -> string): string {
    Join("\r\n", HeaderTexts(columns, translate))
  }

  /** A further column adds a CR LF and that column's header text. */
  lemma RenderHeaderAppend(columns: seq<Column>, c: Column, translate: string -> string)
    requires columns != []
    ensures RenderHeader(columns + [c], translate) == RenderHeader(columns, translate) + "\r\n" + HeaderCells(c, translate)
  {
    assert HeaderTexts(columns + [c], translate) == HeaderTexts(columns, translate) + [HeaderCells(c, translate)];
    JoinAppend("\r\n", HeaderTexts(columns, translate), HeaderCells(c, translate));
  }

  /** A column with MultiColumn(a + b) has the header of MultiColumn(a) followed by that of MultiColumn(b). */
  lemma MultiColumnSplits(c: Column, a: nat, b: nat, translate: string -> string)
    ensures HeaderCells(c.(multi := Some(a + b)), translate)
         == HeaderCells(c.(multi := Some(a)), translate) + HeaderCells(c.(multi := Some(b)), translate)
  {
    var cell := MakeColumnHeader(c, translate);
    assert MakeColumnHeader(c.(multi := Some(a + b)), translate) == cell;
    assert MakeColumnHeader(c.(multi := Some(a)), translate) == cell;
    assert MakeColumnHeader(c.(multi := Some(b)), translate) == cell;
    RepeatAdd(cell, a, b);
  }

  /** Characters a rendered width may consist of. */
  predicate IsNumeralChar(c: char) {
    IsDigit(c) || c == '-'
  }

  /** The number of leading numeral characters of s. */
  function NumeralLength(s: string): (n: nat)
    ensures n <= |s| && forall i :: 0 <= i < n ==> IsNumeralChar(s[i])
    decreases |s|
  {
    if s == [] || !IsNumeralChar(s[0]) then 0 else 1 + NumeralLength(s[1..])
  }

  lemma {:induction false} NumeralLengthOf(numeral: string, rest: string)
    requires forall i :: 0 <= i < |numeral| ==> IsNumeralChar(numeral[i])
    requires rest != [] && !IsNumeralChar(rest[0])
    ensures NumeralLength(numeral + rest) == |numeral|
    decreases |numeral|
  {
    if numeral == [] {
      assert numeral + rest == rest;
    } else {
      assert (numeral + rest)[1..] == numeral[1..] + rest;
      NumeralLengthOf(numeral[1..], rest);
    }
  }

  /**
   * Reads a header cell back: the width, if the cell has one, and the text
   * between the opening tag and `</th>`.
   */
  function ParseHeaderCell(s: string): Option<(Option<int>, string)> {
    if |s| >= 9 && s[..4] == "<th>" && s[|s| - 5..] == "</th>" then Some((None, s[4..|s| - 5]))
    else if |s| >= 11 && s[..11] == "<th width=\"" then
      var rest := s[11..];
      var n := NumeralLength(rest);
      var after := rest[n..];
      if n >= 1 && (rest[0] == '-' || IsDigit(rest[0])) && (forall i :: 1 <= i < n ==> IsDigit(rest[i]))
         && |after| >= 9 && after[..4] == "px\">" && after[|after| - 5..] == "</th>"
      then Some((Some(ParseInt(rest[..n])), after[4..|after| - 5]))
      else None
    else None
  }

  lemma ParsePlainHeader(name: string)
    ensures ParseHeaderCell("<th>" + name + "</th>") == Some((None, name))
  {
    var s := "<th>" + name + "</th>";
    assert s[..4] == "<th>" && s[|s| - 5..] == "</th>" && s[4..|s| - 5] == name;
  }

  lemma ParseSizedHeader(w: int, name: string)
    ensures ParseHeaderCell("<th width=\"" + IntToString(w) + "px\">" + name + "</th>") == Some((Some(w), name))
  {
    var numeral := IntToString(w);
    var tail := "px\">" + name + "</th>";
    var s := "<th width=\"" + numeral + "px\">" + name + "</th>";
    assert s == "<th width=\"" + (numeral + tail);
    assert s[..4] != "<th>" by {
      assert s[3] == ' ';
    }
    assert s[11..] == numeral + tail;
    NumeralLengthOf(numeral, tail);
    assert (numeral + tail)[..|numeral|] == numeral;
    assert (numeral + tail)[|numeral|..] == tail;
    ParseIntToString(w);
    assert tail[4..|tail| - 5] == name;
  }

  /** A header cell gives back its width and its translated name. */
  lemma ParseMakeColumnHeader(c: Column, translate: string -> string)
    ensures ParseHeaderCell(MakeColumnHeader(c, translate)) == Some((c.width, translate(c.header)))
  {
    match c.width
    case None => ParsePlainHeader(translate(c.header));
    case Some(w) => ParseSizedHeader(w, translate(c.header));
  }

  // ---------------------------------------------------------------------------
  // The rows
  // ---------------------------------------------------------------------------

  function Td(text: string): string {
    "<td>" + text + "</td>"
  }

  function TdAll(texts: seq<string>): (r: seq<string>)
    ensures |r| == |texts| && forall i :: 0 <= i < |texts| ==> r[i] == Td(texts[i])
  {
    seq(|texts|, i requires 0 <= i < |texts| => Td(texts[i]))
  }

  /** One cell: a `td` for a scalar, one `td` per item for an array, with nothing between them. */
  function RenderCell(c: Cell): string {
    match c
    case Scalar(text) => Td(text)
    case Items(texts) => Join("", TdAll(texts))
  }

  function CellTexts(row: seq<Cell>): (r: seq<string>)
    ensures |r| == |row| && forall i :: 0 <= i < |row| ==> r[i] == RenderCell(row[i])
  {
    seq(|row|, i requires 0 <= i < |row| => RenderCell(row[i]))
  }

  /** `RenderData`: the row's cells, concatenated. */
  function RenderData(row: seq<Cell>): string {
    Join("", CellTexts(row))
  }

  /** Every text a row shows, in order: a scalar's text, or an array's items. */
  function Flatten(row: seq<Cell>): (r: seq<string>)
    decreases |row|
  {
    if row == [] then []
    else (match row[0] case Scalar(t) => [t] case Items(ts) => ts) + Flatten(row[1..])
  }

  /** A row is one `td` per text it shows, in order, with nothing between them. */
  lemma {:induction false} RenderDataIsFlat(row: seq<Cell>)
    ensures RenderData(row) == Join("", TdAll(Flatten(row)))
    decreases |row|
  {
    if row != [] {
      RenderDataIsFlat(row[1..]);
      var first := match row[0] case Scalar(t) => [t] case Items(ts) => ts;
      assert CellTexts(row)[1..] == CellTexts(row[1..]);
      ConcatFirst(CellTexts(row));
      assert TdAll(first + Flatten(row[1..])) == TdAll(first) + TdAll(Flatten(row[1..]));
      ConcatAppend(TdAll(first), TdAll(Flatten(row[1..])));
      assert RenderCell(row[0]) == Join("", TdAll(first)) by {
        if row[0].Scalar? {
          assert TdAll(first) == [Td(row[0].text)];
        }
      }
    }
  }

  function RowTexts(rows: seq<seq<Cell>>): (r: seq<string>)
    ensures |r| == |rows| && forall i :: 0 <= i < |rows| ==> r[i] == "<tr>" + RenderData(rows[i]) + "</tr>"
  {
    seq(|rows|, i requires 0 <= i < |rows| => "<tr>" + RenderData(rows[i]) + "</tr>")
  }

  /** The body of the table: each row as a `tr`, concatenated in input order. */
  function RenderRows(rows: seq<seq<Cell>>): string {
    Join("", RowTexts(rows))
  }

  /** Rendering rows distributes over concatenating row lists. */
  lemma RenderRowsAppend(rows: seq<seq<Cell>>, more: seq<seq<Cell>>)
    ensures RenderRows(rows + more) == RenderRows(rows) + RenderRows(more)
  {
    assert RowTexts(rows + more) == RowTexts(rows) + RowTexts(more);
    ConcatAppend(RowTexts(rows), RowTexts(more));
  }

  // ---------------------------------------------------------------------------
  // The table
  // ---------------------------------------------------------------------------

  /** The class attribute: empty exactly when ClassName is null (an empty ClassName still gives `class=""`). */
  function ClassAttribute(className: Option<string>): (r: string)
    ensures r == "" <==> className.None?
  {
    if className.None? then "" else "class=\"" + className.value + "\""
  }

  /** The opening table tag with its class attribute, then the header row. */
  function Preamble(t: Table, translate: string -> string): string {
    "<table " + ClassAttribute(t.className) + ">" + "<thead><tr>" + RenderHeader(t.columns, translate) + "</tr></thead>"
  }

  /** `Render(translationDelegate)`: the preamble, the rows, and the closing tag. */
  function Render(t: Table, translate: string -> string): string {
    Preamble(t, translate) + RenderRows(t.rows) + "</table>"
  }

  /** `Render()`: header names are shown as they are. */
  function RenderDefault(t: Table): string {
    Render(t, s => s)
  }

  /** A single row renders as one `tr` around its cells. */
  lemma RenderOneRow(row: seq<Cell>)
    ensures RenderRows([row]) == "<tr>" + RenderData(row) + "</tr>"
  {
    assert RowTexts([row]) == ["<tr>" + RenderData(row) + "</tr>"];
  }

  /** Row i of the input is rendered after the rows before it and before the rows after it. */
  lemma RenderRowAt(rows: seq<seq<Cell>>, i: nat)
    requires i < |rows|
    ensures RenderRows(rows) == RenderRows(rows[..i]) + "<tr>" + RenderData(rows[i]) + "</tr>" + RenderRows(rows[i + 1..])
  {
    assert rows == rows[..i] + ([rows[i]] + rows[i + 1..]);
    RenderRowsAppend(rows[..i], [rows[i]] + rows[i + 1..]);
    RenderRowsAppend([rows[i]], rows[i + 1..]);
    RenderOneRow(rows[i]);
  }

  /** Appending a row inserts its `tr` just before the closing tag and changes nothing else. */
  lemma RenderAppendRow(t: Table, row: seq<Cell>, translate: string -> string)
    ensures Render(t.(rows := t.rows + [row]), translate)
         == Preamble(t, translate) + RenderRows(t.rows) + "<tr>" + RenderData(row) + "</tr>" + "</table>"
  {
    RenderRowsAppend(t.rows, [row]);
    RenderOneRow(row);
  }

  /** Without a translation the header cells read back as the header names themselves. */
  lemma RenderDefaultShowsNames(t: Table, c: Column)
    ensures RenderDefault(t) == Render(t, s => s)
    ensures ParseHeaderCell(MakeColumnHeader(c, s => s)) == Some((c.width, c.header))
  {
    ParseMakeColumnHeader(c, s => s);
  }
}

=== FILE: resolver.dfy ===
/**
 * The member resolver: how a size, an offset or a type discriminator given by
 * name is turned into a number.
 *
 * A specification is either empty (use the literal stored in the attribute),
 * contains the call marker `()` (call the public zero-argument method whose name
 * is the specification with every `()` removed), or is a name looked up first
 * among the public fields and then among the public properties.  The value found
 * is printed and parsed back as a `long`.  Properties and methods are code this
 * model cannot see: their results come from the `invoke` parameter, as the
 * integer their text parses as, or `None` when it does not parse.
 */
module Resolver {
  import opened Wrappers
  import opened Endian
  import opened Attributes
  import opened Schema

  /** `string.IsNullOrEmpty(spec)`. */
  predicate IsNullOrEmpty(spec: Option<string>) {
    spec.None? || spec.value == ""
  }

  /** `spec.Contains("()")`. */
  predicate ContainsCall(s: string) {
    exists i :: 0 <= i < |s| - 1 && s[i] == '(' && s[i + 1] == ')'
  }

  /** `spec.Replace("()", "")`: every occurrence found scanning left to right is removed, without rescanning. */
  function RemoveCalls(s: string): (r: string)
    ensures |r| <= |s|
    ensures !ContainsCall(s) ==> r == s
  {
    if |s| < 2 then s
    else if s[0] == '(' && s[1] == ')' then RemoveCalls(s[2..])
    else
      ContainsCallOfTail(s);
      [s[0]] + RemoveCalls(s[1..])
  }

  lemma ContainsCallOfTail(s: string)
    requires |s| >= 1
    ensures ContainsCall(s[1..]) ==> ContainsCall(s)
  {
    if ContainsCall(s[1..]) {
      var i :| 0 <= i < |s[1..]| - 1 && s[1..][i] == '(' && s[1..][i + 1] == ')';
      assert s[i + 1] == '(' && s[i + 2] == ')';
    }
  }

  /** A specification `name()` calls the method `name`, whenever the name itself has no call marker. */
  lemma {:induction false} RemoveCallsOfCall(name: string)
    requires !ContainsCall(name)
    ensures ContainsCall(name + "()")
    ensures RemoveCalls(name + "()") == name
  {
    var s := name + "()";
    assert s[|name|] == '(' && s[|name| + 1] == ')';
    if |name| == 0 {
      assert s == "()";
    } else if |name| == 1 {
      assert s[1..] == "()";
    } else {
      assert !(name[0] == '(' && name[1] == ')');
      assert s[1..] == name[1..] + "()";
      ContainsCallOfTail(name);
      RemoveCallsOfCall(name[1..]);
    }
  }

  /** `Type.GetField(name)`: the first field declared with that name. */
  function FieldIndex(fields: seq<Field>, name: string): (r: Option<nat>)
    ensures r.Some? ==> r.value < |fields| && fields[r.value].name == name
    ensures r.Some? ==> forall j :: 0 <= j < r.value ==> fields[j].name != name
    ensures r.None? ==> forall j :: 0 <= j < |fields| ==> fields[j].name != name
  {
    if fields == [] then None
    else if fields[0].name == name then Some(0)
    else match FieldIndex(fields[1..], name)
      case None => None
      case Some(i) => Some(i + 1)
  }

  /** `long.Parse(text)` for the text a property or method returned. */
  function ParseLong(text: Option<int>, spec: string): (r: Result<int64, ReadError>)
    ensures r.Ok? <==> text.Some? && IsInt64(text.value)
    ensures r.Ok? ==> r.value == text.value
  {
    match text
    case None => Err(NotAnInteger(spec))
    case Some(n) => if IsInt64(n) then Ok(n) else Err(IntegerOverflow(spec))
  }

  // Parsing a string field's text as `long.Parse` does with the default integer
  // style: optional white space, an optional sign, one or more ASCII digits,
  // optional white space.  A string's text is taken as its UTF-8 bytes, which
  // agree with its characters wherever a numeral can parse.

  predicate IsWhite(b: byte) {
    b == 0x20 || 0x09 <= b <= 0x0D
  }

  predicate IsDigit(b: byte) {
    0x30 <= b <= 0x39
  }

  predicate AllDigits(ds: seq<byte>) {
    forall i :: 0 <= i < |ds| ==> IsDigit(ds[i])
  }

  /** The text without its leading white space. */
  function TrimStart(bs: seq<byte>): (r: seq<byte>)
    ensures |r| <= |bs| && r == bs[|bs| - |r|..]
    ensures forall i :: 0 <= i < |bs| - |r| ==> IsWhite(bs[i])
    ensures |r| > 0 ==> !IsWhite(r[0])
  {
    if |bs| > 0 && IsWhite(bs[0]) then TrimStart(bs[1..]) else bs
  }

  /** The text without its trailing white space. */
  function TrimEnd(bs: seq<byte>): (r: seq<byte>)
    ensures |r| <= |bs| && r == bs[..|r|]
    ensures forall i :: |r| <= i < |bs| ==> IsWhite(bs[i])
    ensures |r| > 0 ==> !IsWhite(r[|r| - 1])
  {
    if |bs| > 0 && IsWhite(bs[|bs| - 1]) then TrimEnd(bs[..|bs| - 1]) else bs
  }

  /** The number a run of decimal digits denotes, most significant first. */
  function DigitsValue(ds: seq<byte>): nat
    requires AllDigits(ds)
  {
    if ds == [] then 0 else 10 * DigitsValue(ds[..|ds| - 1]) + (ds[|ds| - 1] - 0x30)
  }

  /** `long.Parse` of a text, before the range check: the number it denotes, or `None` when it is not a numeral. */
  function ParseNumeral(bs: seq<byte>): Option<int> {
    ParseSigned(TrimEnd(TrimStart(bs)))
  }

  /** An optional sign followed by one or more digits, with nothing around them. */
  function ParseSigned(t: seq<byte>): Option<int> {
    if |t| > 0 && (t[0] == 0x2D || t[0] == 0x2B) then
      var ds := t[1..];
      if |ds| > 0 && AllDigits(ds) then
        var magnitude: int := DigitsValue(ds);
        Some(if t[0] == 0x2D then -magnitude else magnitude)
      else None
    else if |t| > 0 && AllDigits(t) then Some(DigitsValue(t))
    else None
  }

  /** The decimal digits of n, most significant first, without leading zeros. */
  function Digits(n: nat): (ds: seq<byte>)
    ensures |ds| > 0 && AllDigits(ds)
  {
    if n < 10 then [0x30 + n] else Digits(n / 10) + [0x30 + n % 10]
  }

  /** What `n.ToString()` prints for an integer: a minus sign for negatives, then the digits. */
  function Decimal(n: int): (bs: seq<byte>)
    ensures |bs| > 0 && !IsWhite(bs[0]) && !IsWhite(bs[|bs| - 1])
  {
    if n < 0 then [0x2D] + Digits(-n) else Digits(n)
  }

  lemma {:induction false} DigitsValueOfDigits(n: nat)
    ensures DigitsValue(Digits(n)) == n
  {
    if n >= 10 {
      var ds := Digits(n);
      assert ds[..|ds| - 1] == Digits(n / 10);
      DigitsValueOfDigits(n / 10);
    }
  }

  lemma {:induction false} TrimStartOfWhite(lead: seq<byte>, rest: seq<byte>)
    requires forall i :: 0 <= i < |lead| ==> IsWhite(lead[i])
    requires |rest| > 0 && !IsWhite(rest[0])
    ensures TrimStart(lead + rest) == rest
  {
    if |lead| > 0 {
      assert (lead + rest)[1..] == lead[1..] + rest;
      TrimStartOfWhite(lead[1..], rest);
    } else {
      assert lead + rest == rest;
    }
  }

  lemma {:induction false} TrimEndOfWhite(rest: seq<byte>, trail: seq<byte>)
    requires forall i :: 0 <= i < |trail| ==> IsWhite(trail[i])
    requires |rest| > 0 && !IsWhite(rest[|rest| - 1])
    ensures TrimEnd(rest + trail) == rest
  {
    if |trail| > 0 {
      var bs := rest + trail;
      assert bs[..|bs| - 1] == rest + trail[..|trail| - 1];
      TrimEndOfWhite(rest, trail[..|trail| - 1]);
    } else {
      assert rest + trail == rest;
    }
  }

  /** A printed integer, with any white space around it, parses back to that integer. */
  lemma ParseNumeralOfDecimal(n: int, lead: seq<byte>, trail: seq<byte>)
    requires forall i :: 0 <= i < |lead| ==> IsWhite(lead[i])
    requires forall i :: 0 <= i < |trail| ==> IsWhite(trail[i])
    ensures ParseNumeral(lead + Decimal(n) + trail) == Some(n)
  {
    var d := Decimal(n);
    assert TrimEnd(TrimStart(lead + d + trail)) == d by {
      assert lead + d + trail == lead + (d + trail);
      TrimStartOfWhite(lead, d + trail);
      TrimEndOfWhite(d, trail);
    }
    ParseSignedOfDecimal(n);
  }

  lemma ParseSignedOfDecimal(n: int)
    ensures ParseSigned(Decimal(n)) == Some(n)
  {
    var d := Decimal(n);
    if n < 0 {
      assert d[1..] == Digits(-n);
      DigitsValueOfDigits(-n);
    } else {
      assert d[0] != 0x2D && d[0] != 0x2B;
      DigitsValueOfDigits(n);
    }
  }

  /**
   * `long.Parse(field.GetValue(o).ToString())`: an integer prints as its decimal
   * numeral and parses back, a string's text parses when it is a numeral, a null
   * value throws, and a struct or array prints as its type name, which is no numeral.
   */
  function FieldNumber(v: Value, spec: string): (r: Result<int64, ReadError>)
    ensures r.Ok? <==> (v.Int? && IsInt64(v.n)) || (v.Text? && ParseNumeral(v.utf8).Some? && IsInt64(ParseNumeral(v.utf8).value))
    ensures r.Ok? && v.Int? ==> r.value == v.n
    ensures r.Ok? && v.Text? ==> r.value == ParseNumeral(v.utf8).value
    ensures r.Err? ==> r.error == (if v.Null? then NullObject
                                   else if (v.Int? || (v.Text? && ParseNumeral(v.utf8).Some?)) then IntegerOverflow(spec)
                                   else NotAnInteger(spec))
  {
    match v
    case Null => Err(NullObject)
    case Int(_, n) => if IsInt64(n) then Ok(n) else Err(IntegerOverflow(spec))
    case Text(utf8) => ParseLong(ParseNumeral(utf8), spec)
    case _ => Err(NotAnInteger(spec))
  }

  /** A string field holding a printed integer resolves to that integer when it fits in a `long`. */
  lemma FieldNumberOfText(n: int, lead: seq<byte>, trail: seq<byte>, spec: string)
    requires forall i :: 0 <= i < |lead| ==> IsWhite(lead[i])
    requires forall i :: 0 <= i < |trail| ==> IsWhite(trail[i])
    ensures FieldNumber(Text(lead + Decimal(n) + trail), spec)
         == if IsInt64(n) then Ok(n) else Err(IntegerOverflow(spec))
  {
    ParseNumeralOfDecimal(n, lead, trail);
  }

  /** Whether a non-empty specification names a member the resolver can find on the layout. */
  predicate Names(l: Layout, s: string) {
    if ContainsCall(s) then RemoveCalls(s) in l.methods
    else (exists j :: 0 <= j < |l.fields| && l.fields[j].name == s) || s in l.properties
  }

  /** `InferMember(value, spec, o)` against an instance `inst` of layout `l`. */
  function InferMember(literal: int64, spec: Option<string>, l: Layout, inst: seq<Value>, invoke: Invoker): (r: Result<int64, ReadError>)
    requires |inst| == |l.fields|
    ensures IsNullOrEmpty(spec) ==> r == Ok(literal)
    ensures (r.Err? && r.error.MemberNotFound?) <==> !IsNullOrEmpty(spec) && !Names(l, spec.value)
    ensures !IsNullOrEmpty(spec) && ContainsCall(spec.value) && RemoveCalls(spec.value) in l.methods ==>
              r == ParseLong(invoke(l.name, RemoveCalls(spec.value), inst), spec.value)
    ensures !IsNullOrEmpty(spec) && !ContainsCall(spec.value) && FieldIndex(l.fields, spec.value).Some? ==>
              r == FieldNumber(inst[FieldIndex(l.fields, spec.value).value], spec.value)
    ensures !IsNullOrEmpty(spec) && !ContainsCall(spec.value) && FieldIndex(l.fields, spec.value).None? && spec.value in l.properties ==>
              r == ParseLong(invoke(l.name, spec.value, inst), spec.value)
  {
    if IsNullOrEmpty(spec) then Ok(literal)
    else
      var s := spec.value;
      if ContainsCall(s) then
        var m := RemoveCalls(s);
        if m in l.methods then ParseLong(invoke(l.name, m, inst), s) else Err(MemberNotFound(s))
      else
        match FieldIndex(l.fields, s)
        case Some(i) => FieldNumber(inst[i], s)
        case None => if s in l.properties then ParseLong(invoke(l.name, s, inst), s) else Err(MemberNotFound(s))
  }

  /** `GetArraySize`: the resolved count, narrowed by the unchecked cast `(int)`. */
  function GetArraySize(a: ArraySizeAttribute, l: Layout, inst: seq<Value>, invoke: Invoker): (r: Result<int32, ReadError>)
    requires |inst| == |l.fields|
    ensures IsNullOrEmpty(a.getSize) ==> r == Ok(a.size)
    ensures r.Err? <==> InferMember(a.size, a.getSize, l, inst, invoke).Err?
    ensures r.Ok? ==> var n := InferMember(a.size, a.getSize, l, inst, invoke).value;
              (r.value - n) % TWO_POW_32 == 0 && (-TWO_POW_31 <= n < TWO_POW_31 ==> r.value == n)
  {
    var n :- InferMember(a.size, a.getSize, l, inst, invoke);
    Ok(ToInt32(n))
  }

  /** `GetOffsetAttrContent`: the resolved absolute offset. */
  function GetOffsetAttrContent(a: OffsetAttribute, l: Layout, inst: seq<Value>, invoke: Invoker): (r: Result<int64, ReadError>)
    requires |inst| == |l.fields|
    ensures IsNullOrEmpty(a.getOffset) ==> r == Ok(a.specificOffset)
    ensures (r.Err? && r.error.MemberNotFound?) <==> !IsNullOrEmpty(a.getOffset) && !Names(l, a.getOffset.value)
  {
    InferMember(a.specificOffset, a.getOffset, l, inst, invoke)
  }

  /** `GetTypeValue`: the resolved discriminator, narrowed by the unchecked cast `(uint)`. */
  function GetTypeValue(rule: ReadTypeAttribute, l: Layout, inst: seq<Value>, invoke: Invoker): (r: Result<uint32, ReadError>)
    requires |inst| == |l.fields|
    ensures IsNullOrEmpty(rule.field) ==> r == Ok(rule.value)
    ensures r.Err? <==> InferMember(rule.value, rule.field, l, inst, invoke).Err?
    ensures r.Ok? ==> var n := InferMember(rule.value, rule.field, l, inst, invoke).value;
              (r.value - n) % TWO_POW_32 == 0 && (0 <= n < TWO_POW_32 ==> r.value == n)
  {
    var n :- InferMember(rule.value, rule.field, l, inst, invoke);
    Ok(ToUInt32(n))
  }
}

=== FILE: schema.dfy ===
/**
 * The data model of the declarative reader: field types, field descriptors,
 * struct layouts and the runtime values the reader builds.
 *
 * In the source a layout is a .NET type whose fields carry attributes and whose
 * declaration order is recovered by reflection; here the layout is an explicit,
 * ordered list of field descriptors.  A runtime value remembers its own runtime
 * type (the integer kind of a boxed integer, the element type of an array, the
 * layout of a struct instance), because the reader dispatches on the runtime type
 * of the value it is filling, not on the declared type of the field.
 */
module Schema {
  import opened Wrappers
  import opened Endian
  import opened Attributes

  /** The fixed-width integer types the reader knows (`byte`, `short`, `ushort`, `int`, `uint`, `long`, `ulong`). */
  datatype IntKind = U8 | I16 | U16 | I32 | U32 | I64 | U64

  /** Number of bytes a value of this kind occupies in the stream. */
  function Width(k: IntKind): (w: nat)
    ensures w == 1 || w == 2 || w == 4 || w == 8
  {
    match k
    case U8 => 1
    case I16 => 2
    case U16 => 2
    case I32 => 4
    case U32 => 4
    case I64 => 8
    case U64 => 8
  }

  predicate IsSigned(k: IntKind) {
    k == I16 || k == I32 || k == I64
  }

  /** Whether n is representable in the .NET type of kind k. */
  predicate InRange(k: IntKind, n: int) {
    if IsSigned(k) then -SignBoundary(Width(k)) <= n < SignBoundary(Width(k))
    else 0 <= n < Pow256(Width(k))
  }

  /**
   * The type of a field, of an array element, or of a ReadType override.
   * `Unsupported` is a type without a layout, such as an interface: it has no
   * constructor, and the reader has no rule for it.
   */
  datatype FieldType =
    | Prim(kind: IntKind)
    | Enum(underlying: IntKind)
    | Str
    | Arr(elem: FieldType)
    | Struct(layout: Layout)
    | Unsupported

  /** `ReadType(type, field, value)`: decode the field as `t` when the member `field` resolves to `value`. */
  datatype ReadTypeAttribute = ReadTypeAttribute(t: FieldType, field: Option<string>, value: uint32)

  /**
   * One field of a layout with its attributes.
   *  - `init` is what the field holds once the owning object's field initialisers
   *    and parameterless constructor have run: `None` for a null reference,
   *    `Some(v)` for any other value (zero for an integer field nobody assigns,
   *    the value of an initialiser such as `int n = 3`, a fresh nested instance).
   *  - `littleEndian`, `bigEndian`, `internalUse` record the presence of the
   *    attributes of those names; `arraySize` and `offset` may each appear at most
   *    once on a field, `readTypes` any number of times, in order.
   */
  datatype Field = Field(
    name: string,
    declared: FieldType,
    init: Option<Value>,
    littleEndian: bool,
    bigEndian: bool,
    internalUse: bool,
    arraySize: Option<ArraySizeAttribute>,
    offset: Option<OffsetAttribute>,
    readTypes: seq<ReadTypeAttribute>)

  /**
   * A type with a layout: its public instance fields in declaration order (a
   * record type is taken to have no public static or const field), the names of
   * its public properties and public zero-argument methods, which the member
   * resolver may call, and whether it has a public parameterless constructor
   * (false for an abstract class, or a class whose constructors all take
   * arguments; a value type always has one).
   */
  datatype Layout = Layout(name: string, fields: seq<Field>, properties: seq<string>, methods: seq<string>, constructible: bool)

  /**
   * A runtime value together with its runtime type.  `Text` holds the UTF-8 bytes
   * a string was decoded from (the decoding itself is not modelled).  `Opaque` is an
   * object whose runtime type has no layout.
   */
  datatype Value =
    | Null
    | Int(kind: IntKind, n: int)
    | Text(utf8: seq<byte>)
    | Array(elem: FieldType, items: seq<Value>)
    | Record(layout: Layout, fields: seq<Value>)
    | Opaque

  /** Why a read was abandoned.  Every error aborts the whole read. */
  datatype ReadError =
    | EndOfData                          // a fixed-width read or a string ran out of bytes
    | NullObject                         // asked to read into a null reference
    | NoParameterlessConstructor         // an element or field type that cannot be instantiated
    | NoLayout                           // no rule for this runtime type
    | MissingArraySize(field: string)    // an array-typed field without an ArraySize attribute
    | NegativeArraySize(field: string)   // the resolved array length is negative
    | SeekOutOfRange(field: string)      // the resolved offset is not a valid stream position
    | MemberNotFound(spec: string)       // no field, property or method of that name
    | NotAnInteger(spec: string)         // the member's text does not parse as an integer
    | IntegerOverflow(spec: string)      // the member's value does not fit in a `long`
    | MalformedInstance                  // a struct value whose field count disagrees with its layout

  /** A call of a property or zero-argument method: (layout name, member name, instance) to the integer its text parses as. */
  type Invoker = (string, string, seq<Value>) -> Option<int>

  /**
   * The value `new T()` or `Activator.CreateInstance(t)` yields: zero for an
   * integer, and for a layout an instance whose fields hold what its
   * initialisers and constructor leave in them.
   */
  function Default(t: FieldType): Value {
    match t
    case Prim(k) => Int(k, 0)
    case Enum(k) => Int(k, 0)
    case Str => Text([])
    case Arr(e) => Array(e, [])
    case Struct(l) => Record(l, Initial(l.fields))
    case Unsupported => Opaque
  }

  /** The field values of a freshly constructed instance, in declaration order. */
  function Initial(fs: seq<Field>): (vs: seq<Value>)
    ensures |vs| == |fs|
    ensures forall i :: 0 <= i < |fs| ==> vs[i] == InitialValue(fs[i])
  {
    if fs == [] then [] else [InitialValue(fs[0])] + Initial(fs[1..])
  }

  function InitialValue(f: Field): Value {
    match f.init
    case None => Null
    case Some(v) => v
  }

  /** Whether t has a public parameterless constructor: what `Activator.CreateInstance(t)` and `new T()` need. */
  predicate Constructible(t: FieldType) {
    match t
    case Prim(_) => true
    case Enum(_) => true
    case Str => false
    case Arr(_) => false
    case Struct(l) => l.constructible
    case Unsupported => false
  }

  /**
   * `Activator.CreateInstance(t)`: strings, arrays, types without a layout and
   * layouts without a parameterless constructor fail; every other type yields
   * the instance its parameterless constructor builds.
   */
  function Instantiate(t: FieldType): (r: Result<Value, ReadError>)
    ensures r.Err? <==> t.Str? || t.Arr? || t.Unsupported? || (t.Struct? && !t.layout.constructible)
    ensures r.Err? ==> r.error == NoParameterlessConstructor
    ensures r.Ok? ==> r.value == Default(t)
    ensures r.Ok? && (t.Prim? || t.Enum?) ==> r.value == Int(if t.Prim? then t.kind else t.underlying, 0)
    ensures r.Ok? && t.Struct? ==> r.value.Record? && r.value.layout == t.layout && |r.value.fields| == |t.layout.fields|
    ensures r.Ok? && t.Struct? ==> forall j :: 0 <= j < |t.layout.fields| ==> r.value.fields[j] == InitialValue(t.layout.fields[j])
  {
    if Constructible(t) then Ok(Default(t)) else Err(NoParameterlessConstructor)
  }

  /** The element a freshly allocated array slot holds: zero for integers, null otherwise. */
  function ZeroElement(e: FieldType): Value {
    match e
    case Prim(k) => Int(k, 0)
    case Enum(k) => Int(k, 0)
    case _ => Null
  }

  /** `Array.CreateInstance(e, n)`: n zero elements. */
  function Zeros(e: FieldType, n: nat): (vs: seq<Value>)
    ensures |vs| == n
    ensures forall i :: 0 <= i < n ==> vs[i] == ZeroElement(e)
    ensures ValuesHeight(vs) == 0
  {
    if n == 0 then [] else [ZeroElement(e)] + Zeros(e, n - 1)
  }

  /** Whether b has the runtime type of a: what the reader produces when it fills a. */
  predicate SameShape(a: Value, b: Value) {
    match a
    case Null => false
    case Int(k, _) => b.Int? && b.kind == k
    case Text(_) => b.Text?
    case Array(e, xs) => b.Array? && b.elem == e && |b.items| == |xs|
    case Record(l, xs) => b.Record? && b.layout == l && |b.fields| == |xs|
    case Opaque => false
  }

  // Heights and sizes: the measure under which the reader's recursion terminates.
  // A fresh instance of a type is never higher than the type, and every type the
  // reader instantiates while filling a struct or an array sits strictly inside
  // that struct's layout or that array's element type.

  function Max(a: nat, b: nat): nat {
    if a < b then b else a
  }

  function TypeHeight(t: FieldType): nat {
    match t
    case Arr(e) => 1 + TypeHeight(e)
    case Struct(l) => 1 + LayoutHeight(l)
    case _ => 0
  }

  function LayoutHeight(l: Layout): nat {
    FieldsHeight(l.fields)
  }

  function FieldsHeight(fs: seq<Field>): nat {
    if fs == [] then 0 else Max(FieldHeight(fs[0]), FieldsHeight(fs[1..]))
  }

  function FieldHeight(f: Field): nat {
    Max(Max(TypeHeight(f.declared), InitHeight(f.init)), RulesHeight(f.readTypes))
  }

  function InitHeight(init: Option<Value>): nat {
    match init
    case None => 0
    case Some(v) => ValueHeight(v)
  }

  function RulesHeight(rs: seq<ReadTypeAttribute>): nat {
    if rs == [] then 0 else Max(RuleHeight(rs[0]), RulesHeight(rs[1..]))
  }

  function RuleHeight(r: ReadTypeAttribute): nat {
    TypeHeight(r.t)
  }

  function ValueHeight(v: Value): nat {
    match v
    case Array(e, items) => Max(1 + TypeHeight(e), ValuesHeight(items))
    case Record(l, vs) => Max(1 + LayoutHeight(l), ValuesHeight(vs))
    case _ => 0
  }

  function ValuesHeight(vs: seq<Value>): nat {
    if vs == [] then 0 else Max(ValueHeight(vs[0]), ValuesHeight(vs[1..]))
  }

  function ValueSize(v: Value): nat {
    match v
    case Array(_, items) => 1 + ValuesSize(items)
    case Record(_, vs) => 1 + ValuesSize(vs)
    case _ => 1
  }

  function ValuesSize(vs: seq<Value>): nat {
    if vs == [] then 0 else ValueSize(vs[0]) + ValuesSize(vs[1..])
  }

  lemma {:induction false} FieldsHeightBound(fs: seq<Field>, k: nat)
    requires k < |fs|
    ensures FieldHeight(fs[k]) <= FieldsHeight(fs)
  {
    if k > 0 {
      FieldsHeightBound(fs[1..], k - 1);
    }
  }

  lemma {:induction false} RulesHeightBound(rs: seq<ReadTypeAttribute>, i: nat)
    requires i < |rs|
    ensures TypeHeight(rs[i].t) <= RulesHeight(rs)
  {
    if i > 0 {
      RulesHeightBound(rs[1..], i - 1);
    }
  }

  lemma {:induction false} ValuesBound(vs: seq<Value>, k: nat)
    requires k < |vs|
    ensures ValueHeight(vs[k]) <= ValuesHeight(vs)
    ensures ValueSize(vs[k]) <= ValuesSize(vs)
  {
    if k > 0 {
      ValuesBound(vs[1..], k - 1);
    }
  }

  /** A default instance is no higher than its type. */
  lemma {:induction false} DefaultHeight(t: FieldType)
    ensures ValueHeight(Default(t)) <= TypeHeight(t)
  {
    match t
    case Struct(l) => InitialHeight(l.fields);
    case _ =>
  }

  lemma {:induction false} InitialHeight(fs: seq<Field>)
    ensures ValuesHeight(Initial(fs)) <= FieldsHeight(fs)
  {
    if fs != [] {
      var vs := Initial(fs);
      assert vs[1..] == Initial(fs[1..]);
      InitialHeight(fs[1..]);
      assert vs[0] == InitialValue(fs[0]);
      assert ValueHeight(vs[0]) == InitHeight(fs[0].init);
    }
  }
}

=== FILE: set.dfy ===
/**
 * `Set<T>`: a set kept as the keys of a dictionary whose values are all `true`.
 * Only the keys carry information, so the state is a Dafny set.  Enumeration
 * order is the dictionary's, which nothing here relies on: the loops below pick
 * each next member with `:|`, so every order is covered.
 */
module SetUtils {
  import opened Wrappers

  datatype Set<T> = Set(elements: set<T>)

  /** `new Set()`: no member. */
  function Empty<T>(): (s: Set<T>)
    ensures Count(s) == 0
  {
    Set({})
  }

  /**
   * `new Set(size)`: the dictionary constructor rejects a negative capacity with
   * ArgumentOutOfRangeException (`None` here); any other capacity is only a hint
   * and the set starts with no member.
   */
  function EmptyWithCapacity<T(!new)>(size: int): (r: Option<Set<T>>)
    ensures r.None? <==> size < 0
    ensures r.Some? ==> Count(r.value) == 0 && forall y :: !Contains(r.value, y)
  {
    if size < 0 then None else Some(Set({}))
  }

  /** `Contains(item)`: whether item is a key. */
  predicate Contains<T>(s: Set<T>, item: T) {
    item in s.elements
  }

  /** `Count`: the number of keys. */
  function Count<T>(s: Set<T>): nat {
    |s.elements|
  }

  /** The count is zero exactly when nothing is a member, and a member makes it positive. */
  lemma CountAndContains<T(!new)>(s: Set<T>, x: T)
    ensures Count(s) == 0 <==> forall y :: !Contains(s, y)
    ensures Contains(s, x) ==> Count(s) > 0
  {
    if Count(s) != 0 {
      var y :| y in s.elements;
      assert Contains(s, y);
    }
  }

  /** `Add(item)`: `set[item] = true`, which inserts or overwrites. */
  function Add<T(!new)>(s: Set<T>, item: T): (r: Set<T>)
    ensures Contains(r, item)
    ensures forall y :: y != item ==> (Contains(r, y) <==> Contains(s, y))
    ensures Count(r) == if Contains(s, item) then Count(s) else Count(s) + 1
  {
    if item in s.elements then
      assert s.elements + {item} == s.elements;
      Set(s.elements + {item})
    else
      Set(s.elements + {item})
  }

  /** `Remove(item)`: the set without item, and whether item was there. */
  function Remove<T(!new)>(s: Set<T>, item: T): (r: (Set<T>, bool))
    ensures r.1 <==> Contains(s, item)
    ensures !Contains(r.0, item)
    ensures forall y :: y != item ==> (Contains(r.0, y) <==> Contains(s, y))
    ensures Count(r.0) == if r.1 then Count(s) - 1 else Count(s)
  {
    (Set(s.elements - {item}), item in s.elements)
  }

  /** `Clear()`: no member is left. */
  function Clear<T(!new)>(s: Set<T>): (r: Set<T>)
    ensures Count(r) == 0
    ensures forall y :: !Contains(r, y)
  {
    Set({})
  }

  /** `AddRange(list)`: each item of the list is added in turn. */
  function AddRange<T(!new)>(s: Set<T>, list: seq<T>): (r: Set<T>)
    ensures r.elements == s.elements + (set x | x in list)
    decreases |list|
  {
    if list == [] then s
    else
      var r := AddRange(Add(s, list[0]), list[1..]);
      assert (set x | x in list) == {list[0]} + (set x | x in list[1..]);
      r
  }

  /** Adding a member that is already present changes nothing. */
  lemma AddPresent<T(!new)>(s: Set<T>, item: T)
    requires Contains(s, item)
    ensures Add(s, item) == s
  {
    assert Add(s, item).elements == s.elements;
  }

  /** Removing what was just added gives back the set it was added to. */
  lemma RemoveOfAdd<T(!new)>(s: Set<T>, item: T)
    requires !Contains(s, item)
    ensures Remove(Add(s, item), item) == (s, true)
  {
    assert Remove(Add(s, item), item).0.elements == s.elements;
  }

  /** Adding back what was just removed gives back the set it was removed from. */
  lemma AddOfRemove<T(!new)>(s: Set<T>, item: T)
    requires Contains(s, item)
    ensures Add(Remove(s, item).0, item) == s
  {
    assert Add(Remove(s, item).0, item).elements == s.elements;
  }

  /** Adding the same list twice is adding it once. */
  lemma AddRangeIdempotent<T(!new)>(s: Set<T>, list: seq<T>)
    ensures AddRange(AddRange(s, list), list) == AddRange(s, list)
  {
    assert AddRange(AddRange(s, list), list).elements == AddRange(s, list).elements;
  }

  /** Whether the two sets share a member. */
  ghost predicate Overlap<T(!new)>(a: Set<T>, b: Set<T>) {
    exists x :: Contains(a, x) && Contains(b, x)
  }

  /**
   * `Intersects(Set other)`: enumerate the smaller of the two sets and look each
   * member up in the other.  The answer does not depend on the branch taken, so
   * it is symmetric in the two sets.
   */
  method Intersects<T(!new)>(s: Set<T>, other: Set<T>) returns (r: bool)
    ensures r <==> Overlap(s, other)
    ensures r <==> Overlap(other, s)
  {
    if Count(other) < Count(s) {
      r := AnyMemberOf(other.elements, s);
    } else {
      r := AnyMemberOf(s.elements, other);
    }
  }

  /** The `foreach` of both branches: whether any of items, enumerated in some order, is a member of target. */
  method AnyMemberOf<T>(items: set<T>, target: Set<T>) returns (r: bool)
    ensures r <==> exists x :: x in items && Contains(target, x)
  {
    var remaining := items;
    while remaining != {}
      invariant remaining <= items
      invariant forall x :: x in items && x !in remaining ==> !Contains(target, x)
      decreases |remaining|
    {
      var x :| x in remaining;
      if Contains(target, x) {
        return true;
      }
      remaining := remaining - {x};
    }
    return false;
  }

  /** `Intersects(IEnumerable other)`: whether some item of other is a member; an empty other gives false. */
  method IntersectsList<T>(s: Set<T>, other: seq<T>) returns (r: bool)
    ensures r <==> exists i :: 0 <= i < |other| && Contains(s, other[i])
  {
    var i := 0;
    while i < |other|
      invariant 0 <= i <= |other|
      invariant forall j :: 0 <= j < i ==> !Contains(s, other[j])
    {
      if Contains(s, other[i]) {
        return true;
      }
      i := i + 1;
    }
    return false;
  }

  /** `ToArray()`: the keys copied into an array of length Count, in enumeration order. */
  method ToArray<T>(s: Set<T>) returns (arr: seq<T>)
    ensures |arr| == Count(s)
    ensures forall i, j :: 0 <= i < j < |arr| ==> arr[i] != arr[j]
    ensures forall x :: x in arr <==> Contains(s, x)
  {
    arr := [];
    var remaining := s.elements;
    while remaining != {}
      invariant remaining <= s.elements
      invariant forall x :: x in arr <==> x in s.elements && x !in remaining
      invariant forall i, j :: 0 <= i < j < |arr| ==> arr[i] != arr[j]
      invariant |arr| + |remaining| == |s.elements|
      decreases |remaining|
    {
      var x :| x in remaining;
      arr := arr + [x];
      remaining := remaining - {x};
    }
  }
}

=== FILE: wrappers.dfy ===
/** Failure-compatible Option and Result types shared by the reader model. */
module Wrappers {

  /** A value that may be absent: the model's stand-in for a .NET null reference. */
  datatype Option<+T> = None | Some(value: T) {

    predicate IsFailure() {
      None?
    }

    function PropagateFailure<U>(): Option<U>
      requires None?
    {
      None
    }

    function Extract(): T
      requires Some?
    {
      value
    }
  }

  /** Success with a value, or the error that aborted the computation. */
  datatype Result<+T, +E> = Ok(value: T) | Err(error: E) {

    predicate IsFailure() {
      Err?
    }

    function PropagateFailure<U>(): Result<U, E>
      requires Err?
    {
      Err(error)
    }

    function Extract(): T
      requires Ok?
    {
      value
    }
  }
}
